=== FILE: README.md ===
# Antitrust English Lab — review scheduler model

A Dafny model of the flashcard review scheduler in `src/App.tsx` (the `Trainer`
component), together with the small pure list helpers of the same file.

The scheduler is a sequential state machine. Its state is a queue of review
records plus a cursor index and a "flipped" flag.

- **Interval function** (`Scheduler`). `nextInterval` maps a previous interval and a
  grade (Again, Hard, Good, Easy) to a new interval. It uses the multipliers 0.5, 1.4,
  2.2 and 3.5, treats a falsy previous interval as 0.5, rounds to one decimal and
  clamps to at least 0.5.
  - Intervals are integer **tenths of a day**, so the function is
    `max(5, (base * m + 5) / 10)` with `m` in {5, 14, 22, 35}.
  - Due times are integer milliseconds; one tenth of a day is 8,640,000 ms.
- **Queue** (`ReviewQueue`). Each dataset term gets a record with `due` and `interval`.
  - The initial queue gives every term `due = 0` and `interval = 0.5`.
  - On every dataset change the queue is rebuilt in dataset order through a JavaScript
    `Map` keyed by id. The last record with a duplicated id wins, an existing id keeps
    its old record verbatim, and a new id gets the defaults.
  - Grading rewrites every record whose id is the current card's id.
- **View and cursor** (`DueOrder`). The view is the queue stably sorted by ascending
  `due`. The current card is `sorted[index % n]`, and there is none when the queue is
  empty.
- **Session** (`Trainer`). Mounting, dataset changes, flipping and grading are
  transitions on a `Session` value. Grading also advances the index and un-flips
  the card.
  React also runs the dataset effect once right after mounting. With unique ids that
  leaves the mounted state unchanged (`MountSettles`).
- **Helpers**:
  - `Vocab`: tag parsing, new-term construction, add and delete;
  - `Explorer`: the Term Explorer filter;
  - `SentenceBuilder`: token clicks and the correctness check;
  - `MatchGame`: pair resolution;
  - `Mixer`: the Practice Mixer keyword check.
- **Generic support**:
  - `Seqs`: `Array.prototype.filter`;
  - `Text`: ASCII trim, lower-casing, `includes`, `split` and `join`;
  - `Wrappers`: `Option`.

The clock (`Date.now()`) is a parameter `now` of every operation that reads it.

Behaviour of the code that the model keeps:
- Reconciliation reuses the old queue record unchanged, including its term text.
  Edits to a term's text are therefore not reflected in the queue.
- Grading an id that is not in the queue is not an error. `GradeQueue`'s frame clause
  leaves every record unchanged in that case.
- The cursor advances by one over a view that grading has just re-sorted. A graded card
  moves towards the back, so the card after it can be skipped, and with two cards the
  graded one comes up again at once (`TwoCardsShowGradedAgain`).
- Duplicate ids in the dataset are not merged. Each occurrence gets its own record,
  copied from the last queue record with that id.

## Model

| member | source | states |
|---|---|---|
| Scheduler.NextInterval | src/App.tsx:38-42 | The new interval is at least 0.5 days. Above the floor it is the base interval times the grade's multiplier rounded to the nearest tenth, half up. At the floor the exact product is below 0.55. |
| Scheduler.Base | src/App.tsx:40 | The base is never zero. A zero (falsy) previous interval is replaced by 0.5; any other value is kept as it is. |
| Scheduler.NextDue | src/App.tsx:203 | The due time lies exactly `interval` days (86,400,000 ms each) after `now`. |
| Scheduler.DueAfterGrade | src/App.tsx:199-204 | Every graded card is due at least half a day after the grading time. |
| Scheduler.WorkedValues | src/App.tsx:38-42 | 0.5 Good gives 1.1, 1.1 Again gives 0.6, 0.5 Again gives 0.5, 0.5 Easy gives 1.8, and a previous interval of 0 behaves as 0.5. |
| Scheduler.NegativeClamps | src/App.tsx:40-41 | A negative previous interval (truthy, so used as the base) always yields the 0.5 floor. |
| Scheduler.AdjacentGrades | src/App.tsx:39-41 | For a previous interval of 0 or at least 0.5: Again < Hard < Good < Easy. |
| Scheduler.GradeMonotone | src/App.tsx:39-41 | For a previous interval of 0 or at least 0.5, a higher grade gives a strictly longer interval. |
| Scheduler.IntervalMonotone | src/App.tsx:38-42 | For a fixed grade, a longer positive previous interval never gives a shorter new one. |
| Scheduler.PassingGradesGrow | src/App.tsx:38-42 | From at least 0.5, Hard, Good and Easy strictly lengthen the interval, and Again never lengthens it. |
| Scheduler.EasyStreakGrows | src/App.tsx:38-42 | k successive Easy grades from at least 0.5 lengthen the interval by at least k tenths. |
| ReviewQueue.LastWithIdUnique | src/App.tsx:191 | At most one position is the last record with a given id. |
| ReviewQueue.LastWithIdExists | src/App.tsx:191 | Every id in the queue has a last record. |
| ReviewQueue.IndexById | src/App.tsx:191 | The id map `new Map(q.map(i => [i.id, i]))`, built left to right so that a later entry overwrites an earlier one. Its content is stated by IndexFindsLast and IndexMissing. |
| ReviewQueue.IndexFindsLast | src/App.tsx:191 | The id map built from the queue finds, for every queued id, the last record with that id (JavaScript `Map` keeps the last entry for a key). |
| ReviewQueue.IndexMissing | src/App.tsx:191-192 | An id absent from the queue is absent from the map. |
| ReviewQueue.InitQueue | src/App.tsx:185 | The initial queue has one record per term, in order, with due 0 and interval 0.5. |
| ReviewQueue.Reconcile | src/App.tsx:189-194 | The rebuilt queue has the dataset's length and id order. A new id gets the fresh defaults. A known id gets exactly the last old record with that id. |
| ReviewQueue.ReconcileDropsMissing | src/App.tsx:192 | An id absent from the dataset has no record after reconciliation. |
| ReviewQueue.ReconcileEmpty | src/App.tsx:185-192 | Reconciling an empty queue gives the initial queue. |
| ReviewQueue.ReconcileInit | src/App.tsx:185-192 | With unique ids, reconciling the initial queue against its own dataset changes nothing. |
| ReviewQueue.ReconcileIdempotent | src/App.tsx:189-194 | With unique ids, reconciling twice with the same dataset equals reconciling once. |
| ReviewQueue.ReconciledIsLast | src/App.tsx:191-192 | With unique ids, the record at position i of the rebuilt queue is the last one with its id. |
| ReviewQueue.ReconcileAppend | src/App.tsx:192 | Reconciliation works term by term: reconciling a concatenated dataset concatenates the results. |
| ReviewQueue.AddThenReconcile | src/App.tsx:189-194 | Appending terms with new ids appends fresh records and leaves the existing reconciliation unchanged. |
| ReviewQueue.Regrade | src/App.tsx:200-203 | A regraded record keeps its term. Its interval is the scheduler's next interval for its old interval and the grade, so at least 0.5, and it falls due exactly that interval after `now`, at least half a day later. |
| ReviewQueue.GradeQueue | src/App.tsx:199-204 | Grading keeps the queue length and terms. Only records with the graded id change: each gets the next interval and the matching due time, and every other record is identical. |
| ReviewQueue.GradeThenReconcile | src/App.tsx:189-204 | After grading, reconciling with a dataset that still holds the id keeps the graded interval and due. Every other entry reconciles as if nothing had been graded. |
| ReviewQueue.IntervalFloorInvariant | src/App.tsx:185-204 | Initialisation, reconciliation and grading all keep every queued interval at 0.5 or more. |
| DueOrder.WithDueMember | src/App.tsx:196 | A card is in the due-k subsequence exactly when it is in the sequence and its due is k. |
| DueOrder.Insert | src/App.tsx:196 | Inserting adds exactly one occurrence of the card (multiset). |
| DueOrder.InsertSorted | src/App.tsx:196 | Inserting into a due-sorted sequence keeps it sorted. |
| DueOrder.InsertWithDue | src/App.tsx:196 | Insertion puts the new card ahead of the existing cards with its due, and leaves every other due's subsequence unchanged. |
| DueOrder.SortByDue | src/App.tsx:196 | The view is a permutation of the queue, non-decreasing in due. It is stable: for every due value, the cards with that due appear in queue order. |
| DueOrder.HeadIsMinimal | src/App.tsx:196-197 | The first card of a sorted sequence has minimal due. |
| DueOrder.HeadsShareDue | src/App.tsx:196 | Two sorted sequences with the same per-due subsequences start with the same due. |
| DueOrder.HeadsAgree | src/App.tsx:196 | Such sequences have the same first card, and their tails again agree per due. |
| DueOrder.StableOutcomeUnique | src/App.tsx:196 | Two sorted sequences with the same per-due subsequences are equal. |
| DueOrder.StableSortIsSortByDue | src/App.tsx:196 | Any stable ascending sort of the queue yields exactly `SortByDue`. |
| DueOrder.Current | src/App.tsx:196-208 | There is no current card exactly when the queue is empty. The current card is a queued card. Whenever the index is a multiple of n, it is a card with the least due. |
| DueOrder.CurrentIsViewAt | src/App.tsx:197 | The current card is position `index mod n` of the sorted view. |
| DueOrder.CursorCyclic | src/App.tsx:197 | Advancing the index by the queue length shows the same card again. |
| DueOrder.SamePosition | src/App.tsx:197 | Two indices with the same remainder modulo the queue length show the same card. |
| DueOrder.StepsTo | src/App.tsx:197 | From any index, fewer than n steps reach any given view position. |
| DueOrder.CursorCoversView | src/App.tsx:197 | Every card of the view becomes current within n index steps from any start. |
| Trainer.Mount | src/App.tsx:185-187 | Mounting starts at index 0, unflipped, with one fresh record per term. |
| Trainer.MountSettles | src/App.tsx:185-194 | The dataset effect that runs right after mounting leaves a dataset with unique ids exactly as mounted. |
| Trainer.DatasetChanged | src/App.tsx:189-194 | A dataset change rebuilds the queue in dataset id order and leaves index and flip state alone. |
| Trainer.CurrentCard | src/App.tsx:197-208 | There is no current card exactly when the queue is empty; otherwise the current card is a queued record. |
| Trainer.Flip | src/App.tsx:220 | Flipping toggles the flag and changes nothing else. |
| Trainer.GradeCard | src/App.tsx:199-206 | Grading fails only on an empty queue. Otherwise it advances the index by one, clears the flip, and keeps length and terms. It reschedules exactly the records with the current card's id and leaves every other record identical. |
| Trainer.GradedCardDueLater | src/App.tsx:199-205 | After grading, the graded card is due at least half a day after `now`. |
| Trainer.ViewOfOrderedPair | src/App.tsx:196 | Two records already in due order (ties included) form the sorted view as they are. |
| Trainer.ViewOfSwappedPair | src/App.tsx:196 | Two records out of due order are swapped in the sorted view. |
| Trainer.MountedPairShowsFirst | src/App.tsx:185-197 | A freshly mounted pair of terms shows the first term's card. |
| Trainer.GradedPair | src/App.tsx:199-206 | Grading that card regrades it alone (the ids differ), keeps the second card fresh, and moves the cursor to 1, face up. |
| Trainer.TwoCardsShowGradedAgain | src/App.tsx:196-206 | With two fresh cards, the card just graded comes up again at once: it moves to the back of the re-sorted view, which is where the advanced cursor points. |
| Trainer.SessionIntervalFloor | src/App.tsx:185-206 | Every session transition keeps all intervals at 0.5 or more. |
| Trainer.GradeSurvivesDatasetChange | src/App.tsx:189-206 | Grading the current card and then changing the dataset keeps that card's new schedule, as long as the dataset still holds it. While the trainer is shown, only adding a term changes the dataset. |
| Trainer.DeletedTermLeavesSession | src/App.tsx:446 | After a term is deleted and the live queue rebuilt, no record has its id, and it can never be the current card. |
| Trainer.RemountAfterDelete | src/App.tsx:103-113 | Deletion happens in the explorer tab, so the trainer meets it as a remount on the smaller dataset. After that remount no record has the deleted id, and it can never be the current card. |
| Trainer.AddTwoTerms | src/App.tsx:189-194 | Adding two new terms appends exactly two fresh records (interval 0.5, due 0), in order. |
| Vocab.Fresh | src/App.tsx:192 | A new record holds the term with due 0 and interval 0.5. |
| Vocab.TrimAll | src/App.tsx:166 | Each piece is trimmed, in place and in order. |
| Vocab.TrimmedPiecesCommaFree | src/App.tsx:166 | Trimming a comma-free piece keeps it comma-free. |
| Vocab.KeptAreTags | src/App.tsx:166 | The non-empty trimmed comma-free pieces are valid tags. |
| Vocab.ParseTags | src/App.tsx:166 | Every parsed tag is non-empty, trimmed and comma-free. |
| Vocab.ParseJoinedPieces | src/App.tsx:166 | Comma-free pieces joined with "," parse to the trimmed pieces with the empty ones dropped, in order. |
| Vocab.ParseJoinedTags | src/App.tsx:166 | Valid tags joined with "," parse back to the same tags in the same order. |
| Vocab.SpaceAfterFirst | src/App.tsx:166 | Every tag after the first gets a leading space. |
| Vocab.JoinCommaSpace | src/App.tsx:166 | Joining with ", " is joining the space-padded tags with ",". |
| Vocab.ParseFromPieces | src/App.tsx:166 | When the trimmed comma pieces are all non-empty, they are exactly the parsed tags. |
| Vocab.PaddedCommaFree | src/App.tsx:166 | Padding tags with a space keeps them comma-free. |
| Vocab.PaddedTrims | src/App.tsx:166 | Trimming the padded tags restores the tags. |
| Vocab.ParseCommaSpaceTags | src/App.tsx:166 | Valid tags joined with ", " (as a user types them) parse back to the same tags in order. |
| Vocab.ParseBlankPieces | src/App.tsx:166 | Input whose comma pieces all trim to empty yields no tags. |
| Vocab.ParseAllBlank | src/App.tsx:166 | Input made only of whitespace and commas, including the empty string, yields no tags. |
| Vocab.NewTerm | src/App.tsx:166 | A saved term has the clock value as id. Its term, definition, example and translation are each the trimmed text of the matching input, and its tags are the parsed tag input, all valid. |
| Vocab.NewTermKeepsCleanInput | src/App.tsx:166 | Already trimmed fields and valid tags typed as "a, b" produce exactly the term with those fields and tags. |
| Vocab.AddTerm | src/App.tsx:85 | Adding appends the item last and leaves every earlier term in place. |
| Vocab.DeleteTerm | src/App.tsx:446 | After deletion no term has the id. Every other term is kept, nothing new appears, and the list shrinks exactly when the id was present. |
| Vocab.DeleteRemovesEntry | src/App.tsx:446 | With unique ids, deleting the id of position k gives the list without position k, the rest in order. |
| Vocab.DeleteAppend | src/App.tsx:446 | Deletion works entry by entry, so the surviving terms keep their order. |
| Vocab.DeleteAdded | src/App.tsx:446 | Deleting a just-added term with a new id restores the dataset. |
| Vocab.DeletePreservesUnique | src/App.tsx:446 | Deleting keeps the dataset's ids unique. |
| Vocab.UniqueFilter | src/App.tsx:446 | Any filter keeps unique ids unique. |
| Text.SkipSpace | src/App.tsx:166 | The returned position is the first non-whitespace character at or after `p`, or the end. |
| Text.BackSpace | src/App.tsx:166 | The returned position ends the last non-whitespace run before `hi`, but is not before `lo`. |
| Text.Trim | src/App.tsx:166 | The result has no leading or trailing whitespace. It is the input with only leading and trailing whitespace removed. |
| Text.TrimTrimmed | src/App.tsx:166 | Trimming a trimmed string is the identity. |
| Text.TrimLeadingSpace | src/App.tsx:166 | Trimming removes one leading space from a trimmed string. |
| Text.TrimBlank | src/App.tsx:166 | An all-whitespace string trims to empty. |
| Text.ToLower | src/App.tsx:290 | Lower-casing works character by character and keeps the length. |
| Text.ToLowerIdempotent | src/App.tsx:371 | Lower-casing twice is lower-casing once. |
| Text.IncludesEmpty | src/App.tsx:290 | Every string includes the empty string. |
| Text.Split | src/App.tsx:166 | Splitting yields at least one piece, and no piece contains the separator. |
| Text.SplitPieceChars | src/App.tsx:166 | Every character of a piece comes from the split string. |
| Text.SplitCons | src/App.tsx:166 | A separator-free prefix followed by the separator splits off as one piece. |
| Text.SplitNoSep | src/App.tsx:166 | A separator-free string splits into itself. |
| Text.SplitJoin | src/App.tsx:166 | Splitting a join of separator-free pieces gives the pieces back. |
| Text.JoinSplit | src/App.tsx:309 | Joining the pieces of a split with the separator gives the string back. |
| Seqs.Filter | src/App.tsx:446 | Filtering never lengthens. An element is kept exactly when it occurs and passes. When everything passes, the sequence is unchanged. |
| Seqs.FilterDrops | src/App.tsx:446 | Filtering out an element that fails shortens the sequence. |
| Seqs.FilterNone | src/App.tsx:166 | When nothing passes, the result is empty. |
| Seqs.FilterAppend | src/App.tsx:446 | Filtering distributes over concatenation. |
| Seqs.FilterKeepsFront | src/App.tsx:543 | A prefix whose elements all pass is kept whole. |
| Seqs.FilterKeepsBack | src/App.tsx:543 | A suffix whose elements all pass is kept whole. |
| Seqs.FilterRemovesOne | src/App.tsx:543 | When exactly one element fails, filtering removes just that element. |
| Seqs.FilterAgree | src/App.tsx:369-372 | Predicates that agree on the elements filter alike. |
| Seqs.FilterDistinct | src/App.tsx:307 | Filtering keeps a duplicate-free sequence duplicate-free. |
| Explorer.TagMatches | src/App.tsx:370 | `d.tags?.some(t => t.toLowerCase().includes(filter))`: some tag, lower-cased, contains the filter, which is not itself lower-cased. |
| Explorer.Matches | src/App.tsx:369-372 | The listing condition: the tag filter is "all" or matches, and the lower-cased term or definition contains the lower-cased query. |
| Explorer.Explore | src/App.tsx:369-372 | The list holds exactly the entries matching the tag filter and the case-insensitive query, in dataset order. |
| Explorer.ExploreAppend | src/App.tsx:369-372 | Listing a concatenated dataset concatenates the listings, so entries keep dataset order. |
| Explorer.ExploreSingle | src/App.tsx:369-372 | A single entry is listed exactly when it matches. |
| Explorer.ShowAll | src/App.tsx:369-372 | An empty query under "all" lists the whole dataset. |
| Explorer.QueryIgnoresCase | src/App.tsx:371 | Lower-casing the query does not change the list. |
| Explorer.FilteredEntriesHaveTags | src/App.tsx:370 | Under a tag filter other than "all", every listed entry has at least one tag. |
| SentenceBuilder.MoveToken | src/App.tsx:306 | After a click the token is placed. The line keeps its tokens in place, and grows by exactly one token, at the end, when the token was not yet placed. Only that token can be new, and a duplicate-free line stays duplicate-free. |
| SentenceBuilder.RemoveToken | src/App.tsx:307 | Removing takes out every copy of the token and keeps everything else. |
| SentenceBuilder.RemoveTakesOutPosition | src/App.tsx:307 | On a duplicate-free line, removing the token at position k leaves the line without position k, the rest in order. |
| SentenceBuilder.RemoveAppend | src/App.tsx:307 | Removal works token by token, so the remaining tokens keep their order. |
| SentenceBuilder.RemoveUndoesMove | src/App.tsx:306-307 | Placing a token that was not yet placed and then removing it restores the line. |
| SentenceBuilder.StripFinalDot | src/App.tsx:303 | One final period is removed, and nothing else. |
| SentenceBuilder.Tokens | src/App.tsx:303 | The tokens are at least one space-free word. |
| SentenceBuilder.IsCorrect | src/App.tsx:309 | The line is correct when its tokens joined by single spaces, plus a final period, equal the sentence. |
| SentenceBuilder.TokensSolve | src/App.tsx:303-309 | Placing all tokens in their original order solves a sentence ending in a period. |
| SentenceBuilder.SolutionIsTokens | src/App.tsx:303-309 | A solution made of space-free words is exactly the token list. |
| SentenceBuilder.ClicksKeepDistinct | src/App.tsx:306-307 | Clicks never create a duplicate on the line. |
| SentenceBuilder.RepeatedWordUnsolvable | src/App.tsx:303-309 | A sentence with a repeated word can never be built, because the line never holds duplicates. |
| MatchGame.FindByTerm | src/App.tsx:542 | The lookup finds the first pair with the term, or none exactly when no pair has it. |
| MatchGame.IsRightMatch | src/App.tsx:542-543 | A pick is right when the first pair with the picked term has the picked definition. |
| MatchGame.Resolve | src/App.tsx:540-546 | Nothing happens until both picks are truthy; then the picks are cleared. A right match removes every pair with that term and keeps the others in board order, once each: the result is the board filtered by term. A wrong match keeps the board. |
| MatchGame.RightMatchRemovesPair | src/App.tsx:540-546 | With distinct terms, matching a pair removes exactly that pair. |
| MatchGame.MatchFirst | src/App.tsx:540-546 | Matching the first pair right leaves the rest of the board. |
| MatchGame.Done | src/App.tsx:548 | The game is done when the board is empty. |
| MatchGame.MatchingAllFinishes | src/App.tsx:540-548 | With distinct non-empty terms and definitions, matching every pair empties the board, so the game ends. |
| Mixer.Words | src/App.tsx:290 | Splitting the answer gives at least one piece. |
| Mixer.FirstSix | src/App.tsx:290 | At most the first six pieces are checked, in order. |
| Mixer.CheckAsWritten | src/App.tsx:290 | The check as written: one of the first six lower-cased pieces of the answer occurs in the lower-cased definition. |
| Mixer.EmptyPiecePasses | src/App.tsx:290 | An empty piece among the first six makes the check pass for any definition. |
| Mixer.TrailingSpaceAccepted | src/App.tsx:290 | The empty answer and "zzz " both pass against any definition. |
| Mixer.RealWords | src/App.tsx:290 | A piece is kept exactly when it is a non-empty word of the answer. With no empty piece the kept pieces are all the pieces, in order. |
| Mixer.Check | src/App.tsx:290 | The corrected check: one of the first six non-empty words of the answer occurs in the lower-cased definition. |
| Mixer.CheckNeedsKeyword | src/App.tsx:290 | The corrected check passes only when a non-empty word of the answer occurs in the definition. |
| Mixer.CheckRejectsEmpty | src/App.tsx:290 | The corrected check rejects the empty answer. |
| Mixer.RealWordsOfTrailingSpace | src/App.tsx:290 | "zzz " has the single real word "zzz". |
| Mixer.AbcLacksZzz | src/App.tsx:290 | "zzz" does not occur in "abc". |
| Mixer.CheckRejectsTrailingSpace | src/App.tsx:290 | The corrected check rejects "zzz " against "abc". |
| Mixer.CheckStricter | src/App.tsx:290 | Every answer the corrected check accepts is also accepted by the check as written, so the correction only rejects more. |
| Mixer.CheckAgreesWithoutBlanks | src/App.tsx:290 | On answers with no empty piece, the corrected check agrees with the original. |

## Left out

- React rendering, hooks, effect scheduling and animation: each effect is an explicit function on the state.
- The `src/components/ui/*` wrappers are styling, with one effect on the trainer. `TabsContent` renders nothing for an inactive tab (src/components/ui/tabs.tsx:17-20), so the queue lives only while the trainer tab is shown.
  - The queue is not persisted: only the dataset is saved (src/App.tsx:70-72). A tab switch or a reload therefore starts again from `Mount(dataset)`.
  - Deleting happens in the explorer tab, so a deletion reaches the trainer as a remount (`Trainer.RemountAfterDelete`). Only adding a term, from the header, changes the dataset of a live trainer.
- `localStorage` load and save (src/App.tsx:64-72), file export (src/App.tsx:55-60) and speech synthesis (src/App.tsx:44-51): browser I/O.
- `shuffle` and the random pickers (src/App.tsx:53, :272, :460, :531): `Math.random`.
  - The sentence builder works on the unshuffled token list. Shuffling only reorders the buttons.
  - The match game starts from a given board.
- The Mixer prompt picker, MiniQuiz and ClozeQuiz components: random choice and display only.
- `Date.now()`: the parameter `now`, which also supplies the id of a new term.
- IEEE-754 arithmetic: intervals are exact tenths, so binary rounding artefacts are not reproduced. For example, a new card graded Hard gets 0.7; graded Easy next, JavaScript evaluates 0.7 × 3.5 × 10 as 24.499999999999996, which rounds to 24 (2.4 days), while `NextInterval(7, Easy)` is 25 (2.5 days).
- Scheduler.NextInterval: the previous interval is any integer number of tenths. A fractional or non-finite stored interval (NaN, undefined) cannot be expressed.
- GradeQueue: one `now` is used for every record with the graded id. The source calls `Date.now()` once per matching record, so with duplicate ids their due times could differ by the milliseconds between calls.
- Card: every record has a `due`. The source's `due || 0` for a missing due is therefore not modelled separately.
- Text.Trim: ASCII whitespace only. Unicode spaces that JavaScript's `trim` also removes are not covered.
- Text.ToLower: ASCII letters only.
- SentenceBuilder.Tokens: `split(/\s+/)` is modelled as a split on single spaces, so sentences are assumed to use single spaces between words.
- Explorer.Explore: the optional `tags?` field is modelled as a possibly empty tag list, so a term without tags is a term with no tags.

## Findings

| source | as written | input that shows it | evidently intended | confidence | as-written member | corrected member |
|---|---|---|---|---|---|---|
| src/App.tsx:290 | `answer.toLowerCase().split(" ").slice(0,6).some(w => def.toLowerCase().includes(w))` | the answer "" (or any answer with a trailing or doubled space, such as "zzz ") against any definition: `split(" ")` yields an empty piece, and every string includes "" | only non-empty words of the answer count as keywords | not executed | Mixer.TrailingSpaceAccepted | Mixer.CheckRejectsTrailingSpace |

=== FILE: due_order.dfy ===
/**
 * The trainer's due-ordered view (`[...queue].sort((a, b) => (a.due || 0) - (b.due || 0))`,
 * a stable sort) and the cursor that picks `sorted[index % sorted.length]`.
 * Every queue record carries a numeric due, so `due || 0` is the due itself.
 */
module DueOrder {
  import opened Wrappers
  import opened Vocab

  /** Non-decreasing in due. */
  predicate SortedByDue(s: seq<Card>) {
    forall i, j :: 0 <= i < j < |s| ==> s[i].due <= s[j].due
  }

  /** The records of `s` whose due is `k`, in their order in `s`. */
  function WithDue(s: seq<Card>, k: int): seq<Card>
    decreases |s|
  {
    if |s| == 0 then []
    else (if s[0].due == k then [s[0]] else []) + WithDue(s[1..], k)
  }

  /** A record is among those of due `k` exactly when it is in `s` with that due. */
  lemma {:induction false} WithDueMember(s: seq<Card>, k: int, c: Card)
    ensures c in WithDue(s, k) <==> c in s && c.due == k
    decreases |s|
  {
    if |s| > 0 {
      WithDueMember(s[1..], k, c);
      assert s == [s[0]] + s[1..];
    }
  }

  /** Stable insertion: `x` goes before the first record whose due is not smaller. */
  function Insert(x: Card, s: seq<Card>): (r: seq<Card>)
    ensures multiset(r) == multiset(s) + multiset{x}
    decreases |s|
  {
    if |s| == 0 then [x]
    else if x.due <= s[0].due then [x] + s
    else
      assert s == [s[0]] + s[1..];
      [s[0]] + Insert(x, s[1..])
  }

  /** Insertion keeps a sorted sequence sorted. */
  lemma {:induction false} InsertSorted(x: Card, s: seq<Card>)
    requires SortedByDue(s)
    ensures SortedByDue(Insert(x, s))
    decreases |s|
  {
    if |s| > 0 && x.due > s[0].due {
      var rest := Insert(x, s[1..]);
      InsertSorted(x, s[1..]);
      forall c | c in rest ensures s[0].due <= c.due {
        assert c in multiset(rest);
        assert c in multiset(s[1..]) || c == x;
      }
    }
  }

  /** Insertion puts `x` first among the records of its due and moves no other record. */
  lemma {:induction false} InsertWithDue(x: Card, s: seq<Card>, k: int)
    ensures WithDue(Insert(x, s), k) == if x.due == k then [x] + WithDue(s, k) else WithDue(s, k)
    decreases |s|
  {
    if |s| > 0 && x.due > s[0].due {
      InsertWithDue(x, s[1..], k);
      assert ([s[0]] + Insert(x, s[1..]))[1..] == Insert(x, s[1..]);
    } else if |s| > 0 {
      assert ([x] + s)[1..] == s;
    }
  }

  /**
   * The due-ordered view: a permutation of the queue, non-decreasing in due, in which
   * records with equal due keep their queue order.
   */
  function SortByDue(q: seq<Card>): (r: seq<Card>)
    ensures multiset(r) == multiset(q)
    ensures |r| == |q|
    ensures SortedByDue(r)
    ensures forall k :: WithDue(r, k) == WithDue(q, k)
    decreases |q|
  {
    if |q| == 0 then []
    else
      var rest := SortByDue(q[1..]);
      assert q == [q[0]] + q[1..];
      InsertSorted(q[0], rest);
      assert forall k :: WithDue(Insert(q[0], rest), k) == WithDue(q, k) by {
        forall k ensures WithDue(Insert(q[0], rest), k) == WithDue(q, k) {
          InsertWithDue(q[0], rest, k);
        }
      }
      Insert(q[0], rest)
  }

  /** The first record of `s` with the due of `s[0]` is `s[0]` itself. */
  lemma WithDueHead(s: seq<Card>)
    requires |s| > 0
    ensures WithDue(s, s[0].due) == [s[0]] + WithDue(s[1..], s[0].due)
    ensures forall k :: k != s[0].due ==> WithDue(s, k) == WithDue(s[1..], k)
  {
  }

  /** In a sorted sequence no record precedes the head in due. */
  lemma HeadIsMinimal(a: seq<Card>, c: Card)
    requires SortedByDue(a) && |a| > 0 && c in a
    ensures a[0].due <= c.due
  {
    var j :| 0 <= j < |a| && a[j] == c;
  }

  /** Sorted sequences with the same records per due start with the same due. */
  lemma {:induction false} HeadsShareDue(a: seq<Card>, b: seq<Card>)
    requires SortedByDue(a) && SortedByDue(b) && |a| > 0 && |b| > 0
    requires forall k :: WithDue(a, k) == WithDue(b, k)
    ensures a[0].due == b[0].due
  {
    var ka, kb := a[0].due, b[0].due;
    WithDueHead(a);
    WithDueHead(b);
    assert a[0] in WithDue(b, ka);
    WithDueMember(b, ka, a[0]);
    HeadIsMinimal(b, a[0]);
    assert b[0] in WithDue(a, kb);
    WithDueMember(a, kb, b[0]);
    HeadIsMinimal(a, b[0]);
  }

  /** ... and then with the same record, and their tails agree per due as well. */
  lemma {:induction false} HeadsAgree(a: seq<Card>, b: seq<Card>)
    requires SortedByDue(a) && SortedByDue(b) && |a| > 0 && |b| > 0
    requires forall k :: WithDue(a, k) == WithDue(b, k)
    ensures a[0] == b[0]
    ensures forall k :: WithDue(a[1..], k) == WithDue(b[1..], k)
  {
    HeadsShareDue(a, b);
    var k0 := a[0].due;
    WithDueHead(a);
    WithDueHead(b);
    var ta, tb := WithDue(a[1..], k0), WithDue(b[1..], k0);
    assert [a[0]] + ta == [b[0]] + tb;
    assert ([a[0]] + ta)[0] == a[0] && ([b[0]] + tb)[0] == b[0];
    assert ([a[0]] + ta)[1..] == ta && ([b[0]] + tb)[1..] == tb;
  }

  /** A non-empty sequence has some record for the due of its head. */
  lemma NonEmptyHasDue(s: seq<Card>)
    requires |s| > 0
    ensures WithDue(s, s[0].due) != []
  {
    WithDueHead(s);
  }

  /**
   * A stable sort by due has exactly one possible outcome: two sorted sequences whose
   * records of each due value agree in order are equal.
   */
  lemma {:induction false} StableOutcomeUnique(a: seq<Card>, b: seq<Card>)
    requires SortedByDue(a) && SortedByDue(b)
    requires forall k :: WithDue(a, k) == WithDue(b, k)
    ensures a == b
    decreases |a|
  {
    if |a| == 0 {
      if |b| > 0 {
        NonEmptyHasDue(b);
        assert false;
      }
    } else if |b| == 0 {
      NonEmptyHasDue(a);
      assert false;
    } else {
      HeadsAgree(a, b);
      StableOutcomeUnique(a[1..], b[1..]);
      assert a == [a[0]] + a[1..] && b == [b[0]] + b[1..];
    }
  }

  /** Any stable ascending-due ordering of the queue is the due-ordered view. */
  lemma StableSortIsSortByDue(q: seq<Card>, s: seq<Card>)
    requires SortedByDue(s)
    requires forall k :: WithDue(s, k) == WithDue(q, k)
    ensures s == SortByDue(q)
  {
    StableOutcomeUnique(s, SortByDue(q));
  }

  /** `sorted[index % sorted.length]`; none for an empty queue (the trainer renders nothing). */
  function Current(q: seq<Card>, index: nat): (r: Option<Card>)
    ensures r.None? <==> |q| == 0
    ensures r.Some? ==> r.value in q
    ensures r.Some? && index % |q| == 0 ==> forall j :: 0 <= j < |q| ==> r.value.due <= q[j].due
  {
    if |q| == 0 then None
    else
      var sorted := SortByDue(q);
      var c := sorted[index % |q|];
      assert c in multiset(q) by { assert c in multiset(sorted); }
      assert forall j :: 0 <= j < |q| ==> q[j] in sorted by {
        forall j | 0 <= j < |q| ensures q[j] in sorted { assert q[j] in multiset(sorted); }
      }
      Some(c)
  }

  /** The cursor is cyclic: advancing it by the queue length, to `later`, shows the same card. */
  lemma {:induction false} CursorCyclic(q: seq<Card>, index: nat, later: nat)
    requires later == index + |q|
    ensures Current(q, later) == Current(q, index)
  {
    if |q| > 0 {
      ModShift(index, |q|);
      SamePosition(q, later, index);
    }
  }

  /** Indices with the same remainder show the same card. */
  lemma SamePosition(q: seq<Card>, i: nat, j: nat)
    requires |q| > 0 && i % |q| == j % |q|
    ensures Current(q, i) == Current(q, j)
  {
  }

  lemma CurrentIsViewAt(q: seq<Card>, index: nat)
    requires |q| > 0
    ensures Current(q, index) == Some(SortByDue(q)[index % |q|])
  {
  }

  lemma MulAtLeast(n: int, d: int)
    requires n > 0 && d >= 1
    ensures n * d >= n
  {
  }

  /** Only a zero multiple of `n` lies strictly between `-n` and `n`. */
  lemma MulSmall(n: int, d: int)
    requires n > 0 && -n < n * d < n
    ensures d == 0
  {
    if d >= 1 {
      MulAtLeast(n, d);
    } else if d <= -1 {
      MulAtLeast(n, -d);
    }
  }

  /** The remainder is determined by any quotient-remainder decomposition. */
  lemma ModUnique(a: int, n: int, q: int, r: int)
    requires n > 0 && a == n * q + r && 0 <= r < n
    ensures a % n == r
  {
    var q0, r0 := a / n, a % n;
    assert n * (q - q0) == r0 - r;
    MulSmall(n, q - q0);
  }

  lemma ModShift(i: nat, n: nat)
    requires n > 0
    ensures (i + n) % n == i % n
  {
    ModUnique(i + n, n, i / n + 1, i % n);
  }

  /** Steps from cursor position `start` until position `j` of the view comes up. */
  function StepsTo(start: nat, j: nat, n: nat): (d: nat)
    requires n > 0 && j < n
    ensures d < n && (start + d) % n == j
  {
    var s := start % n;
    if j >= s then
      ModUnique(start + (j - s), n, start / n, j);
      j - s
    else
      ModUnique(start + (j - s + n), n, start / n + 1, j);
      j - s + n
  }

  /** Within one pass of `|q|` steps the cursor reaches every record of the view. */
  lemma CursorCoversView(q: seq<Card>, start: nat, j: nat)
    requires j < |q|
    ensures Current(q, start + StepsTo(start, j, |q|)) == Some(SortByDue(q)[j])
  {
  }
}

=== FILE: explorer.dfy ===
/**
 * The Term Explorer list: a tag filter (a fixed lower-case option or "all") and a
 * case-insensitive search over term and definition.
 */
module Explorer {
  import opened Text
  import opened Seqs
  import opened Vocab

  /** `d.tags?.some(t => t.toLowerCase().includes(filter))`; the filter is not lower-cased. */
  predicate TagMatches(tags: seq<string>, filter: string) {
    exists t :: t in tags && Includes(ToLower(t), filter)
  }

  /** The search and tag conditions an entry must meet to be listed. */
  predicate Matches(d: Term, query: string, filter: string) {
    && (filter == "all" || TagMatches(d.tags, filter))
    && (Includes(ToLower(d.term), ToLower(query)) || Includes(ToLower(d.def), ToLower(query)))
  }

  /** The listed entries: exactly the matching ones, in dataset order. */
  function Explore(ds: seq<Term>, query: string, filter: string): (r: seq<Term>)
    ensures |r| <= |ds|
    ensures forall i :: 0 <= i < |r| ==> r[i] in ds && Matches(r[i], query, filter)
    ensures forall i :: 0 <= i < |ds| && Matches(ds[i], query, filter) ==> ds[i] in r
  {
    Filter((d: Term) => Matches(d, query, filter), ds)
  }

  /** The list is built entry by entry: listing a concatenation concatenates the lists, so dataset order is kept. */
  lemma ExploreAppend(a: seq<Term>, b: seq<Term>, query: string, filter: string)
    ensures Explore(a + b, query, filter) == Explore(a, query, filter) + Explore(b, query, filter)
  {
    FilterAppend((d: Term) => Matches(d, query, filter), a, b);
  }

  /** A single entry is listed exactly when it matches. */
  lemma ExploreSingle(d: Term, query: string, filter: string)
    ensures Explore([d], query, filter) == if Matches(d, query, filter) then [d] else []
  {
    assert [d][1..] == [];
  }

  /** An empty search under "All" lists the whole dataset unchanged. */
  lemma ShowAll(ds: seq<Term>)
    ensures Explore(ds, "", "all") == ds
  {
    forall i | 0 <= i < |ds| ensures Matches(ds[i], "", "all") {
      IncludesEmpty(ToLower(ds[i].term));
    }
  }

  /** The search ignores letter case. */
  lemma QueryIgnoresCase(ds: seq<Term>, query: string, filter: string)
    ensures Explore(ds, ToLower(query), filter) == Explore(ds, query, filter)
  {
    ToLowerIdempotent(query);
    FilterAgree((d: Term) => Matches(d, ToLower(query), filter), (d: Term) => Matches(d, query, filter), ds);
  }

  /** A tag filter other than "all" only lists entries carrying some tags. */
  lemma FilteredEntriesHaveTags(ds: seq<Term>, query: string, filter: string)
    requires filter != "all"
    ensures forall i :: 0 <= i < |Explore(ds, query, filter)| ==> |Explore(ds, query, filter)[i].tags| > 0
  {
  }
}

=== FILE: match_game.dfy ===
/**
 * The Match Game's resolution effect: once both a term and a definition are selected
 * (both non-empty, since the empty string is falsy), the first pair with that term is
 * looked up; if its definition is the selected one, every pair with that term leaves
 * the board. The selection is cleared either way.
 */
module MatchGame {
  import opened Wrappers
  import opened Seqs

  datatype Pair = Pair(id: int, term: string, def: string)

  /** The player's current picks; `None` is an unset field of the selection object. */
  datatype Selection = Selection(term: Option<string>, def: Option<string>)

  /** JavaScript truthiness of an optional string. */
  predicate Truthy(s: Option<string>) {
    s.Some? && s.value != ""
  }

  /** `pairs.find(x => x.term === term)`, as the position of the first such pair. */
  function FindByTerm(pairs: seq<Pair>, term: string): (r: Option<nat>)
    ensures r.None? <==> forall j :: 0 <= j < |pairs| ==> pairs[j].term != term
    ensures r.Some? ==> (r.value < |pairs| && pairs[r.value].term == term &&
                         forall j :: 0 <= j < r.value ==> pairs[j].term != term)
    decreases |pairs|
  {
    if |pairs| == 0 then None
    else if pairs[0].term == term then Some(0)
    else match FindByTerm(pairs[1..], term)
      case None => None
      case Some(k) => Some(k + 1)
  }

  /** The pair selected by a term and a definition is right: the first pair with the term has that definition. */
  predicate IsRightMatch(pairs: seq<Pair>, term: string, def: string) {
    match FindByTerm(pairs, term)
    case None => false
    case Some(k) => pairs[k].def == def
  }

  /** The board and selection after the effect runs. */
  function Resolve(pairs: seq<Pair>, m: Selection): (r: (seq<Pair>, Selection))
    ensures !(Truthy(m.term) && Truthy(m.def)) ==> r == (pairs, m)
    ensures Truthy(m.term) && Truthy(m.def) ==> r.1 == Selection(None, None)
    ensures Truthy(m.term) && Truthy(m.def) && IsRightMatch(pairs, m.term.value, m.def.value) ==>
      |r.0| < |pairs| && (forall i :: 0 <= i < |r.0| ==> r.0[i] in pairs && r.0[i].term != m.term.value) &&
      (forall i :: 0 <= i < |pairs| && pairs[i].term != m.term.value ==> pairs[i] in r.0)
    ensures Truthy(m.term) && Truthy(m.def) && IsRightMatch(pairs, m.term.value, m.def.value) ==>
      r.0 == Filter((x: Pair) => x.term != m.term.value, pairs)
    ensures Truthy(m.term) && Truthy(m.def) && !IsRightMatch(pairs, m.term.value, m.def.value) ==> r.0 == pairs
  {
    if Truthy(m.term) && Truthy(m.def) then
      var t := m.term.value;
      match FindByTerm(pairs, t)
      case Some(k) =>
        if pairs[k].def == m.def.value then
          FilterDrops((x: Pair) => x.term != t, pairs, k);
          (Filter((x: Pair) => x.term != t, pairs), Selection(None, None))
        else (pairs, Selection(None, None))
      case None => (pairs, Selection(None, None))
    else (pairs, m)
  }

  /** `pairs.length === 0` sets the done flag. */
  predicate Done(pairs: seq<Pair>) {
    |pairs| == 0
  }

  /** With distinct terms, a right match removes exactly the matched pair. */
  lemma RightMatchRemovesPair(pairs: seq<Pair>, k: int)
    requires 0 <= k < |pairs| && pairs[k].term != "" && pairs[k].def != ""
    requires forall i, j :: 0 <= i < j < |pairs| ==> pairs[i].term != pairs[j].term
    ensures Resolve(pairs, Selection(Some(pairs[k].term), Some(pairs[k].def))).0 == pairs[..k] + pairs[k+1..]
  {
    var t := pairs[k].term;
    assert FindByTerm(pairs, t) == Some(k);
    FilterRemovesOne((x: Pair) => x.term != t, pairs, k);
  }

  /** Matching every pair of a board with distinct terms, one after another, finishes the game. */
  lemma {:induction false} MatchingAllFinishes(pairs: seq<Pair>)
    requires forall i :: 0 <= i < |pairs| ==> pairs[i].term != "" && pairs[i].def != ""
    requires forall i, j :: 0 <= i < j < |pairs| ==> pairs[i].term != pairs[j].term
    ensures Done(MatchInOrder(pairs))
    decreases |pairs|
  {
    if |pairs| > 0 {
      var rest := pairs[1..];
      MatchFirst(pairs);
      assert forall i, j :: 0 <= i < j < |rest| ==> rest[i].term != rest[j].term by {
        forall i, j | 0 <= i < j < |rest| ensures rest[i].term != rest[j].term {
          assert rest[i] == pairs[i + 1] && rest[j] == pairs[j + 1];
        }
      }
      MatchingAllFinishes(rest);
    }
  }

  /** Matching the first pair of a board with distinct terms leaves the rest of the board. */
  lemma MatchFirst(pairs: seq<Pair>)
    requires |pairs| > 0 && pairs[0].term != "" && pairs[0].def != ""
    requires forall i, j :: 0 <= i < j < |pairs| ==> pairs[i].term != pairs[j].term
    ensures MatchInOrder(pairs) == MatchInOrder(pairs[1..])
  {
    RightMatchRemovesPair(pairs, 0);
    assert pairs[..0] + pairs[1..] == pairs[1..];
  }

  /** The board left after selecting each pair's term and definition, first to last. */
  function MatchInOrder(pairs: seq<Pair>): seq<Pair>
    decreases |pairs|
  {
    if |pairs| == 0 then pairs
    else
      var next := Resolve(pairs, Selection(Some(pairs[0].term), Some(pairs[0].def))).0;
      if |next| < |pairs| then MatchInOrder(next) else next
  }
}

=== FILE: mixer.dfy ===
/**
 * The Practice Mixer's keyword check: the answer is lower-cased and split on single
 * spaces, and it passes when one of its first six pieces occurs in the lower-cased
 * definition. `CheckAsWritten` is that check; `Check` ignores empty pieces.
 */
module Mixer {
  import opened Text
  import opened Seqs

  /** `answer.toLowerCase().split(" ")`. */
  function Words(answer: string): (ws: seq<string>)
    ensures |ws| >= 1
  {
    Split(ToLower(answer), ' ')
  }

  /** `.slice(0, 6)`. */
  function FirstSix(ws: seq<string>): (r: seq<string>)
    ensures |r| <= 6 && |r| <= |ws| && r == ws[..|r|]
    ensures |ws| >= 6 ==> |r| == 6
    ensures |ws| < 6 ==> r == ws
  {
    if |ws| <= 6 then ws else ws[..6]
  }

  /** `.some(w => def.toLowerCase().includes(w))` over the first six pieces. */
  predicate CheckAsWritten(answer: string, def: string) {
    exists w :: w in FirstSix(Words(answer)) && Includes(ToLower(def), w)
  }

  /** An answer whose first six pieces contain an empty one passes whatever it says. */
  lemma {:induction false} EmptyPiecePasses(answer: string, def: string)
    requires "" in FirstSix(Words(answer))
    ensures CheckAsWritten(answer, def)
  {
    IncludesEmpty(ToLower(def));
  }

  /** The empty answer and a lone word with a trailing space both pass against any definition. */
  lemma TrailingSpaceAccepted(def: string)
    ensures CheckAsWritten("", def)
    ensures CheckAsWritten("zzz ", def)
  {
    assert Words("") == [""];
    EmptyPiecePasses("", def);
    assert ToLower("zzz ") == "zzz" + [' '] + "";
    SplitCons("zzz", ' ', "");
    assert Words("zzz ") == ["zzz", ""];
    EmptyPiecePasses("zzz ", def);
  }

  /** A piece that is a real word: not the empty string. */
  predicate IsWord(w: string) {
    w != ""
  }

  /** The non-empty pieces of the answer, in order. */
  function RealWords(answer: string): (ws: seq<string>)
    ensures forall i :: 0 <= i < |ws| ==> ws[i] != "" && ws[i] in Words(answer)
    ensures forall w :: w in Words(answer) && w != "" ==> w in ws
    ensures (forall i :: 0 <= i < |Words(answer)| ==> Words(answer)[i] != "") ==> ws == Words(answer)
  {
    var ws := Filter(IsWord, Words(answer));
    assert forall i :: 0 <= i < |ws| ==> ws[i] != "" && ws[i] in Words(answer) by {
      forall i | 0 <= i < |ws| ensures ws[i] != "" && ws[i] in Words(answer) { assert ws[i] in ws; }
    }
    ws
  }

  /** The check with empty pieces ignored: a real keyword of the answer must occur in the definition. */
  predicate Check(answer: string, def: string) {
    exists w :: w in FirstSix(RealWords(answer)) && Includes(ToLower(def), w)
  }

  /** The corrected check passes only on a non-empty word of the answer found in the definition. */
  lemma CheckNeedsKeyword(answer: string, def: string)
    requires Check(answer, def)
    ensures exists w :: w in Words(answer) && w != "" && Includes(ToLower(def), w)
  {
    var w :| w in FirstSix(RealWords(answer)) && Includes(ToLower(def), w);
    assert w in RealWords(answer);
  }

  /** The corrected check rejects the empty answer against any definition. */
  lemma CheckRejectsEmpty(def: string)
    ensures !Check("", def)
  {
    assert Words("") == [""];
    assert RealWords("") == [];
  }

  /** "zzz " has the single real word "zzz". */
  lemma RealWordsOfTrailingSpace()
    ensures RealWords("zzz ") == ["zzz"]
  {
    assert ToLower("zzz ") == "zzz" + [' '] + "";
    SplitCons("zzz", ' ', "");
    assert Words("zzz ") == ["zzz"] + [""];
    FilterAppend((w: string) => w != "", ["zzz"], [""]);
  }

  /** "zzz" does not occur in "abc". */
  lemma AbcLacksZzz()
    ensures !Includes(ToLower("abc"), "zzz")
  {
    assert ToLower("abc") == "abc";
    forall i | 0 <= i <= 3 ensures !OccursAt("abc", "zzz", i) {
      assert i + 3 <= 3 ==> "abc"[i..i + 3][0] == 'a';
    }
  }

  /** The corrected check rejects the lone word "zzz " against "abc". */
  lemma CheckRejectsTrailingSpace()
    ensures !Check("zzz ", "abc")
  {
    RealWordsOfTrailingSpace();
    AbcLacksZzz();
    assert FirstSix(["zzz"]) == ["zzz"];
  }

  /** On answers with no empty piece the corrected check agrees with the original. */
  /**
   * The corrected check is never more lenient: whatever it accepts, the check as written
   * accepts too. Either an empty piece already passes the original, or the first six
   * pieces are all real words and are the first six real words.
   */
  lemma CheckStricter(answer: string, def: string)
    requires Check(answer, def)
    ensures CheckAsWritten(answer, def)
  {
    var ws := Words(answer);
    if "" in FirstSix(ws) {
      EmptyPiecePasses(answer, def);
    } else {
      var n := if |ws| < 6 then |ws| else 6;
      var front := ws[..n];
      assert FirstSix(ws) == front;
      forall i | 0 <= i < |front| ensures IsWord(front[i]) {
        assert front[i] in FirstSix(ws);
      }
      assert front + ws[n..] == ws;
      FilterAppend(IsWord, front, ws[n..]);
      assert FirstSix(RealWords(answer)) == front;
    }
  }

  lemma CheckAgreesWithoutBlanks(answer: string, def: string)
    requires forall i :: 0 <= i < |Words(answer)| ==> Words(answer)[i] != ""
    ensures Check(answer, def) == CheckAsWritten(answer, def)
  {
  }
}

=== FILE: review_queue.dfy ===
/**
 * The trainer's review queue: built from the dataset with default scheduling, rebuilt
 * whenever the dataset changes (reusing each surviving id's record verbatim), and
 * rewritten by a grading event.
 */
module ReviewQueue {
  import opened Vocab
  import opened Scheduler

  /** Position `k` holds the last record of `q` with this id. */
  ghost predicate LastWithId(q: seq<Card>, id: int, k: int) {
    0 <= k < |q| && q[k].Id() == id && forall j :: k < j < |q| ==> q[j].Id() != id
  }

  ghost predicate InQueue(q: seq<Card>, id: int) {
    exists j :: 0 <= j < |q| && q[j].Id() == id
  }

  /** The last record with a given id is unique. */
  lemma LastWithIdUnique(q: seq<Card>, id: int, k1: int, k2: int)
    requires LastWithId(q, id, k1) && LastWithId(q, id, k2)
    ensures k1 == k2
  {
  }

  /** Every id in the queue has a last record. */
  lemma {:induction false} LastWithIdExists(q: seq<Card>, id: int) returns (k: int)
    requires InQueue(q, id)
    ensures LastWithId(q, id, k)
    decreases |q|
  {
    if q[|q| - 1].Id() == id {
      k := |q| - 1;
    } else {
      k := LastWithIdExists(q[..|q| - 1], id);
    }
  }

  /**
   * `new Map(q.map(i => [i.id, i]))`: entries are inserted in queue order, so a
   * repeated id keeps its last record.
   */
  function IndexById(q: seq<Card>): (m: map<int, Card>)
    decreases |q|
  {
    if |q| == 0 then map[]
    else IndexById(q[..|q| - 1])[q[|q| - 1].Id() := q[|q| - 1]]
  }

  /** A queued id is a key of the index, mapped to its last record. */
  lemma {:induction false} IndexFindsLast(q: seq<Card>, id: int) returns (k: int)
    requires InQueue(q, id)
    ensures id in IndexById(q) && LastWithId(q, id, k) && IndexById(q)[id] == q[k]
    decreases |q|
  {
    var init := q[..|q| - 1];
    if q[|q| - 1].Id() == id {
      k := |q| - 1;
    } else {
      var j :| 0 <= j < |q| && q[j].Id() == id;
      assert init[j] == q[j];
      k := IndexFindsLast(init, id);
    }
  }

  /** An id that is not queued is not a key of the index. */
  lemma {:induction false} IndexMissing(q: seq<Card>, id: int)
    requires !InQueue(q, id)
    ensures id !in IndexById(q)
    decreases |q|
  {
    if |q| > 0 {
      var init := q[..|q| - 1];
      forall j | 0 <= j < |init| ensures init[j].Id() != id {
        assert init[j] == q[j];
      }
      IndexMissing(init, id);
    }
  }

  /** The queue the trainer starts from: every term fresh, in dataset order. */
  function InitQueue(ds: seq<Term>): (q: seq<Card>)
    ensures |q| == |ds|
    ensures forall i :: 0 <= i < |ds| ==> q[i].item == ds[i] && q[i].due == 0 && q[i].interval == 5
  {
    seq(|ds|, i requires 0 <= i < |ds| => Fresh(ds[i]))
  }

  /**
   * `dataset.map(d => map.get(d.id) || { ...d, due: 0, interval: 0.5 })`: one record per
   * dataset entry in dataset order; an id already queued takes its last old record
   * verbatim (text edits are not picked up), a new id starts fresh, and ids no longer
   * in the dataset disappear.
   */
  function Reconcile(q: seq<Card>, ds: seq<Term>): (r: seq<Card>)
    ensures |r| == |ds|
    ensures forall i :: 0 <= i < |ds| ==> r[i].Id() == ds[i].id
    ensures forall i :: 0 <= i < |ds| && !InQueue(q, ds[i].id) ==> r[i] == Fresh(ds[i])
    ensures forall i :: 0 <= i < |ds| && InQueue(q, ds[i].id) ==>
      exists k :: LastWithId(q, ds[i].id, k) && r[i] == q[k]
  {
    var m := IndexById(q);
    var r := seq(|ds|, i requires 0 <= i < |ds| => if ds[i].id in m then m[ds[i].id] else Fresh(ds[i]));
    assert forall i :: 0 <= i < |ds| ==> r[i].Id() == ds[i].id && (InQueue(q, ds[i].id) ==>
        exists k :: LastWithId(q, ds[i].id, k) && r[i] == q[k]) && (!InQueue(q, ds[i].id) ==> r[i] == Fresh(ds[i])) by {
      forall i | 0 <= i < |ds| ensures r[i].Id() == ds[i].id && (InQueue(q, ds[i].id) ==>
          exists k :: LastWithId(q, ds[i].id, k) && r[i] == q[k]) && (!InQueue(q, ds[i].id) ==> r[i] == Fresh(ds[i])) {
        if InQueue(q, ds[i].id) {
          var k := IndexFindsLast(q, ds[i].id);
        } else {
          IndexMissing(q, ds[i].id);
        }
      }
    }
    r
  }

  /** Ids absent from the dataset are absent from the reconciled queue. */
  lemma ReconcileDropsMissing(q: seq<Card>, ds: seq<Term>, id: int)
    requires !HasId(ds, id)
    ensures !InQueue(Reconcile(q, ds), id)
  {
  }

  /** Starting from an empty queue, reconciliation is the initial queue. */
  lemma ReconcileEmpty(ds: seq<Term>)
    ensures Reconcile([], ds) == InitQueue(ds)
  {
  }

  /** With unique ids, the mount-time reconciliation leaves the initial queue as it is. */
  lemma {:induction false} ReconcileInit(ds: seq<Term>)
    requires UniqueIds(ds)
    ensures Reconcile(InitQueue(ds), ds) == InitQueue(ds)
  {
    var q := InitQueue(ds);
    var r := Reconcile(q, ds);
    forall i | 0 <= i < |ds| ensures r[i] == q[i] {
      var id := ds[i].id;
      assert q[i].Id() == id;
      assert InQueue(q, id);
      var k :| LastWithId(q, id, k) && r[i] == q[k];
      assert LastWithId(q, id, i) by {
        forall j | i < j < |q| ensures q[j].Id() != id {
          assert q[j].Id() == ds[j].id;
        }
      }
      LastWithIdUnique(q, id, k, i);
    }
  }

  /** With unique dataset ids, reconciling twice with the same dataset equals once. */
  lemma {:induction false} ReconcileIdempotent(q: seq<Card>, ds: seq<Term>)
    requires UniqueIds(ds)
    ensures Reconcile(Reconcile(q, ds), ds) == Reconcile(q, ds)
  {
    var r := Reconcile(q, ds);
    var r2 := Reconcile(r, ds);
    forall i | 0 <= i < |ds| ensures r2[i] == r[i] {
      var id := ds[i].id;
      ReconciledIsLast(q, ds, i);
      assert InQueue(r, id);
      var k :| LastWithId(r, id, k) && r2[i] == r[k];
      LastWithIdUnique(r, id, k, i);
    }
  }

  /** With unique dataset ids, each reconciled record is the last (only) one with its id. */
  lemma ReconciledIsLast(q: seq<Card>, ds: seq<Term>, i: int)
    requires UniqueIds(ds) && 0 <= i < |ds|
    ensures LastWithId(Reconcile(q, ds), ds[i].id, i)
  {
    var r := Reconcile(q, ds);
    forall j | i < j < |r| ensures r[j].Id() != ds[i].id {
      assert r[j].Id() == ds[j].id;
    }
  }

  /** Reconciliation maps each dataset entry on its own, so it splits over concatenation. */
  lemma ReconcileAppend(q: seq<Card>, a: seq<Term>, b: seq<Term>)
    ensures Reconcile(q, a + b) == Reconcile(q, a) + Reconcile(q, b)
  {
  }

  /** Adding new ids then reconciling appends fresh records and touches nothing else. */
  lemma AddThenReconcile(q: seq<Card>, ds: seq<Term>, added: seq<Term>)
    requires forall i :: 0 <= i < |added| ==> !InQueue(q, added[i].id)
    ensures Reconcile(q, ds + added) == Reconcile(q, ds) + InitQueue(added)
  {
    ReconcileAppend(q, ds, added);
  }

  /** A graded record: new interval from the scheduler, due that many days after `now`. */
  function Regrade(c: Card, g: Grade, now: int): (r: Card)
    ensures r.item == c.item
    ensures r.interval == NextInterval(c.interval, g) && r.due == NextDue(now, r.interval)
    ensures r.interval >= MinInterval
    ensures r.due >= now + MsPerDay / 2
    ensures 10 * (r.due - now) == r.interval * MsPerDay
  {
    var t := NextInterval(c.interval, g);
    DueAfterGrade(now, c.interval, g);
    c.(interval := t, due := NextDue(now, t))
  }

  /** The `setQueue` update of `gradeCard`: every record with `id` is regraded, the rest kept. */
  function GradeQueue(q: seq<Card>, id: int, g: Grade, now: int): (r: seq<Card>)
    ensures |r| == |q|
    ensures forall i :: 0 <= i < |q| ==> r[i].item == q[i].item
    ensures forall i :: 0 <= i < |q| && q[i].Id() != id ==> r[i] == q[i]
    ensures forall i :: 0 <= i < |q| && q[i].Id() == id ==>
      r[i].interval == NextInterval(q[i].interval, g) && r[i].due == NextDue(now, r[i].interval)
  {
    seq(|q|, i requires 0 <= i < |q| => if q[i].Id() == id then Regrade(q[i], g, now) else q[i])
  }

  /**
   * Grading a queued card and then reconciling with a dataset that still holds it keeps
   * the graded interval and due; every other entry reconciles as if nothing was graded.
   */
  lemma {:induction false} GradeThenReconcile(q: seq<Card>, ds: seq<Term>, id: int, g: Grade, now: int, k: int)
    requires LastWithId(q, id, k)
    ensures forall i :: 0 <= i < |ds| && ds[i].id == id ==>
      Reconcile(GradeQueue(q, id, g, now), ds)[i] == Regrade(q[k], g, now)
    ensures forall i :: 0 <= i < |ds| && ds[i].id != id ==>
      Reconcile(GradeQueue(q, id, g, now), ds)[i] == Reconcile(q, ds)[i]
  {
    var q' := GradeQueue(q, id, g, now);
    var r', r := Reconcile(q', ds), Reconcile(q, ds);
    assert LastWithId(q', id, k);
    forall i | 0 <= i < |ds| && ds[i].id == id ensures r'[i] == Regrade(q[k], g, now) {
      var k' :| LastWithId(q', id, k') && r'[i] == q'[k'];
      LastWithIdUnique(q', id, k, k');
    }
    forall i | 0 <= i < |ds| && ds[i].id != id ensures r'[i] == r[i] {
      var x := ds[i].id;
      if InQueue(q, x) {
        var j :| LastWithId(q, x, j) && r[i] == q[j];
        assert LastWithId(q', x, j);
        var j' :| LastWithId(q', x, j') && r'[i] == q'[j'];
        LastWithIdUnique(q', x, j, j');
      } else {
        assert !InQueue(q', x);
      }
    }
  }

  /** Every record carries an interval of at least half a day. */
  ghost predicate ValidIntervals(q: seq<Card>) {
    forall i :: 0 <= i < |q| ==> q[i].interval >= MinInterval
  }

  /** The interval floor holds initially and survives reconciliation and grading. */
  lemma IntervalFloorInvariant(q: seq<Card>, ds: seq<Term>, id: int, g: Grade, now: int)
    requires ValidIntervals(q)
    ensures ValidIntervals(InitQueue(ds))
    ensures ValidIntervals(Reconcile(q, ds))
    ensures ValidIntervals(GradeQueue(q, id, g, now))
  {
    var r := Reconcile(q, ds);
    forall i | 0 <= i < |ds| ensures r[i].interval >= MinInterval {
      if InQueue(q, ds[i].id) {
        var k :| LastWithId(q, ds[i].id, k) && r[i] == q[k];
      }
    }
  }
}

=== FILE: scheduler.dfy ===
/**
 * The review-interval policy of the flashcard trainer (`nextInterval` and the due-time
 * computation in `gradeCard`). Intervals are integers counted in tenths of a day, so
 * the source's "round to one decimal place" is exact; due times are integer milliseconds.
 */
module Scheduler {

  /** The four self-reported recall grades, buttons 0..3 of the flashcard. */
  datatype Grade = Again | Hard | Good | Easy

  /** The smallest interval ever scheduled: 0.5 days. */
  const MinInterval: int := 5

  /** Milliseconds in one day (24 * 60 * 60 * 1000). */
  const MsPerDay: int := 86_400_000

  /** Milliseconds in a tenth of a day. */
  const MsPerTenth: int := 8_640_000

  /** Grade multipliers 0.5, 1.4, 2.2 and 3.5, in tenths. */
  function Multiplier(g: Grade): (m: int)
    ensures 5 <= m <= 35
  {
    match g
    case Again => 5
    case Hard => 14
    case Good => 22
    case Easy => 35
  }

  /** The ordinal of a grade, as the source's button handlers pass it. */
  function Rank(g: Grade): (n: int)
    ensures 0 <= n <= 3
  {
    match g
    case Again => 0
    case Hard => 1
    case Good => 2
    case Easy => 3
  }

  /** `prev || 0.5`: a zero (falsy) interval is read as half a day. */
  function Base(prev: int): (b: int)
    ensures b != 0
    ensures prev == 0 ==> b == MinInterval
    ensures prev != 0 ==> b == prev
  {
    if prev == 0 then MinInterval else prev
  }

  /**
   * `nextInterval(prev, grade)`: base times multiplier, rounded half-up to a tenth of
   * a day, clamped to at least half a day. `base * m` is in hundredths of a day.
   */
  function NextInterval(prev: int, g: Grade): (r: int)
    ensures r >= MinInterval
    // r is the tenth nearest to base * multiplier (halves rounded up) unless that is below the floor
    ensures r > MinInterval ==> 10 * r - 5 <= Base(prev) * Multiplier(g) < 10 * r + 5
    ensures r == MinInterval ==> Base(prev) * Multiplier(g) < 10 * MinInterval + 5
  {
    var rounded := (Base(prev) * Multiplier(g) + 5) / 10;
    if rounded < MinInterval then MinInterval else rounded
  }

  /** `Date.now() + next * 24 * 60 * 60 * 1000`, with `now` passed in. */
  function NextDue(now: int, interval: int): (due: int)
    ensures 10 * (due - now) == interval * MsPerDay
  {
    now + interval * MsPerTenth
  }

  /** A scheduled card is never due again sooner than half a day after grading. */
  lemma DueAfterGrade(now: int, prev: int, g: Grade)
    ensures NextDue(now, NextInterval(prev, g)) >= now + MsPerDay / 2
  {
  }

  /** The worked values: 0.5 Good -> 1.1, 1.1 Again -> 0.6, 0.5 Again -> 0.5, 0.5 Easy -> 1.8. */
  lemma WorkedValues()
    ensures NextInterval(5, Good) == 11
    ensures NextInterval(11, Again) == 6
    ensures NextInterval(5, Again) == 5
    ensures NextInterval(5, Easy) == 18
    ensures NextInterval(0, Good) == NextInterval(5, Good)
  {
  }

  /** Negative intervals are truthy, so they are multiplied as they are and then clamped. */
  lemma NegativeClamps(prev: int, g: Grade)
    requires prev < 0
    ensures NextInterval(prev, g) == MinInterval
  {
  }

  /** Floor division is monotone in the dividend. */
  lemma DivMonotone(a: int, b: int)
    requires a <= b
    ensures a / 10 <= b / 10
  {
  }

  /** Neighbouring grades, for a base of at least half a day. */
  lemma AdjacentGrades(prev: int)
    requires prev == 0 || prev >= MinInterval
    ensures NextInterval(prev, Again) < NextInterval(prev, Hard)
    ensures NextInterval(prev, Hard) < NextInterval(prev, Good)
    ensures NextInterval(prev, Good) < NextInterval(prev, Easy)
  {
    var b := Base(prev);
    assert b >= 5;
    var again, hard, good, easy := (b * 5 + 5) / 10, (b * 14 + 5) / 10, (b * 22 + 5) / 10, (b * 35 + 5) / 10;
    assert 10 * again <= b * 5 + 5;
    assert b * 14 + 5 < 10 * hard + 10;
    assert 10 * hard <= b * 14 + 5;
    assert b * 22 + 5 < 10 * good + 10;
    assert 10 * good <= b * 22 + 5;
    assert b * 35 + 5 < 10 * easy + 10;
    assert hard >= 7;
  }

  /**
   * For a previous interval of at least half a day (or the absent interval), the
   * result strictly increases with the grade: Again < Hard < Good < Easy.
   */
  lemma GradeMonotone(prev: int, g1: Grade, g2: Grade)
    requires prev == 0 || prev >= MinInterval
    requires Rank(g1) < Rank(g2)
    ensures NextInterval(prev, g1) < NextInterval(prev, g2)
  {
    AdjacentGrades(prev);
  }

  /** The result never shrinks when the previous interval grows. */
  lemma {:induction false} IntervalMonotone(p1: int, p2: int, g: Grade)
    requires 0 < p1 <= p2
    ensures NextInterval(p1, g) <= NextInterval(p2, g)
  {
    var m := Multiplier(g);
    assert p1 * m <= p2 * m;
    DivMonotone(p1 * m + 5, p2 * m + 5);
  }

  /** Hard, Good and Easy lengthen an interval of at least half a day; Again never does. */
  lemma {:induction false} PassingGradesGrow(prev: int, g: Grade)
    requires prev >= MinInterval
    ensures g != Again ==> NextInterval(prev, g) > prev
    ensures g == Again ==> NextInterval(prev, g) <= prev
  {
    var m := Multiplier(g);
    var rounded := (prev * m + 5) / 10;
    assert 10 * rounded + 10 > prev * m + 5;
    assert 10 * rounded <= prev * m + 5;
    if g != Again {
      assert prev * m >= prev * 14;
      assert prev * 14 + 5 >= 10 * prev + 10 + 10;
    } else {
      assert prev * m == 5 * prev;
    }
  }

  /** The interval after `k` Easy grades starting from `start`. */
  function EasyStreak(start: int, k: nat): (r: int)
    decreases k
  {
    if k == 0 then start else NextInterval(EasyStreak(start, k - 1), Easy)
  }

  /** Repeated Easy grades grow the interval without bound: at least one tenth per grade. */
  lemma {:induction false} EasyStreakGrows(start: int, k: nat)
    requires start >= MinInterval
    ensures EasyStreak(start, k) >= start + k
    decreases k
  {
    if k > 0 {
      EasyStreakGrows(start, k - 1);
      PassingGradesGrow(EasyStreak(start, k - 1), Easy);
    }
  }
}

=== FILE: sentence_builder.dfy ===
/**
 * The Sentence Builder: clicking a token appends it unless already placed, clicking a
 * placed token removes every copy, and the sentence is solved when the placed tokens,
 * joined by spaces, plus a full stop give the sentence text.
 */
module SentenceBuilder {
  import opened Text
  import opened Seqs

  /** `b.includes(t) ? b : [...b, t]`. */
  function MoveToken(b: seq<string>, t: string): (r: seq<string>)
    ensures t in r
    ensures |r| == |b| + (if t in b then 0 else 1) && r[..|b|] == b
    ensures forall x :: x in b ==> x in r
    ensures forall x :: x in r ==> x in b || x == t
    ensures Distinct(b) ==> Distinct(r)
  {
    if t in b then b else b + [t]
  }

  /** `b.filter(x => x !== t)`. */
  function RemoveToken(b: seq<string>, t: string): (r: seq<string>)
    ensures t !in r
    ensures forall x :: x in b && x != t ==> x in r
    ensures forall x :: x in r ==> x in b
    ensures Distinct(b) ==> Distinct(r)
  {
    var p := (x: string) => x != t;
    if Distinct(b) then
      FilterDistinct(p, b);
      Filter(p, b)
    else
      Filter(p, b)
  }

  /** On a line without duplicates, removing a placed token takes out just that position. */
  lemma RemoveTakesOutPosition(b: seq<string>, k: int)
    requires Distinct(b) && 0 <= k < |b|
    ensures RemoveToken(b, b[k]) == b[..k] + b[k+1..]
  {
    var p := (x: string) => x != b[k];
    assert PassesExcept(p, b, k);
    FilterRemovesOne(p, b, k);
  }

  /** Removal works token by token, so the remaining tokens keep their order. */
  lemma RemoveAppend(a: seq<string>, c: seq<string>, t: string)
    ensures RemoveToken(a + c, t) == RemoveToken(a, t) + RemoveToken(c, t)
  {
    FilterAppend((x: string) => x != t, a, c);
  }

  /** Removing a token just placed restores the previous build. */
  lemma RemoveUndoesMove(b: seq<string>, t: string)
    requires t !in b
    ensures RemoveToken(MoveToken(b, t), t) == b
  {
    var p := (x: string) => x != t;
    FilterAppend(p, b, [t]);
  }

  /** `sentence.text.replace(/\.$/, "")`. */
  function StripFinalDot(s: string): (r: string)
    ensures |s| > 0 && s[|s| - 1] == '.' ==> r + "." == s
    ensures !(|s| > 0 && s[|s| - 1] == '.') ==> r == s
  {
    if |s| > 0 && s[|s| - 1] == '.' then s[..|s| - 1] else s
  }

  /** The tokens offered, before shuffling: the words of the sentence without its full stop. */
  function Tokens(text: string): (r: seq<string>)
    ensures |r| >= 1
    ensures forall k :: 0 <= k < |r| ==> ' ' !in r[k]
  {
    Split(StripFinalDot(text), ' ')
  }

  /** `built.join(" ") + "." === sentence.text`. */
  predicate IsCorrect(built: seq<string>, text: string) {
    Join(built, " ") + "." == text
  }

  /** Placing the tokens in sentence order solves a sentence that ends in a full stop. */
  lemma TokensSolve(text: string)
    requires |text| > 0 && text[|text| - 1] == '.'
    ensures IsCorrect(Tokens(text), text)
  {
    JoinSplit(StripFinalDot(text), ' ');
  }

  /** The only solving build of space-free tokens is the sentence's tokens in order. */
  lemma SolutionIsTokens(built: seq<string>, text: string)
    requires |built| >= 1 && forall k :: 0 <= k < |built| ==> ' ' !in built[k]
    requires IsCorrect(built, text)
    ensures built == Tokens(text)
  {
    assert StripFinalDot(text) == Join(built, " ") by {
      var j := Join(built, " ");
      assert text[..|text| - 1] == j;
    }
    SplitJoin(built, ' ');
  }

  /** Builds reachable by clicking never hold the same token twice. */
  lemma ClicksKeepDistinct(b: seq<string>, t: string)
    requires Distinct(b)
    ensures Distinct(MoveToken(b, t)) && Distinct(RemoveToken(b, t))
  {
  }

  /** So a sentence that repeats a word can never be solved by clicking. */
  lemma RepeatedWordUnsolvable(built: seq<string>, text: string)
    requires Distinct(built)
    requires !Distinct(Tokens(text))
    requires |built| >= 1 && forall k :: 0 <= k < |built| ==> ' ' !in built[k]
    ensures !IsCorrect(built, text)
  {
    if IsCorrect(built, text) {
      SolutionIsTokens(built, text);
      assert false;
    }
  }
}

=== FILE: seqs.dfy ===
/** Generic sequence helpers: order-preserving filtering (JavaScript `Array.prototype.filter`). */
module Seqs {

  /** Keeps the elements of `s` satisfying `p`, in their original order. */
  function Filter<T(!new)>(p: T -> bool, s: seq<T>): (r: seq<T>)
    ensures |r| <= |s|
    ensures forall x :: x in r <==> x in s && p(x)
    ensures (forall i :: 0 <= i < |s| ==> p(s[i])) ==> r == s
    decreases |s|
  {
    if |s| == 0 then []
    else if p(s[0]) then [s[0]] + Filter(p, s[1..])
    else Filter(p, s[1..])
  }

  /** Filtering out an element makes the sequence shorter. */
  lemma {:induction false} FilterDrops<T(!new)>(p: T -> bool, s: seq<T>, k: int)
    requires 0 <= k < |s| && !p(s[k])
    ensures |Filter(p, s)| < |s|
    decreases |s|
  {
    if k > 0 {
      FilterDrops(p, s[1..], k - 1);
    }
  }

  /** Nothing passes, nothing is kept. */
  lemma {:induction false} FilterNone<T(!new)>(p: T -> bool, s: seq<T>)
    requires forall i :: 0 <= i < |s| ==> !p(s[i])
    ensures Filter(p, s) == []
    decreases |s|
  {
    if |s| > 0 {
      FilterNone(p, s[1..]);
    }
  }

  /** Filtering distributes over concatenation. */
  lemma {:induction false} FilterAppend<T(!new)>(p: T -> bool, a: seq<T>, b: seq<T>)
    ensures Filter(p, a + b) == Filter(p, a) + Filter(p, b)
    decreases |a|
  {
    if |a| == 0 {
      assert a + b == b;
    } else {
      assert (a + b)[1..] == a[1..] + b;
      FilterAppend(p, a[1..], b);
    }
  }

  /** Every element of `s` except the one at `k` passes `p`. */
  predicate PassesExcept<T>(p: T -> bool, s: seq<T>, k: int) {
    forall i :: 0 <= i < |s| && i != k ==> p(s[i])
  }

  /** The elements before `k` all pass, so they are kept whole. */
  lemma FilterKeepsFront<T(!new)>(p: T -> bool, s: seq<T>, k: int)
    requires 0 <= k < |s| && PassesExcept(p, s, k)
    ensures Filter(p, s[..k]) == s[..k]
  {
    var u := s[..k];
    forall i | 0 <= i < |u| ensures p(u[i]) { assert u[i] == s[i]; }
  }

  /** The elements after `k` all pass, so they are kept whole. */
  lemma FilterKeepsBack<T(!new)>(p: T -> bool, s: seq<T>, k: int)
    requires 0 <= k < |s| && PassesExcept(p, s, k)
    ensures Filter(p, s[k+1..]) == s[k+1..]
  {
    var u := s[k+1..];
    forall i | 0 <= i < |u| ensures p(u[i]) { assert u[i] == s[k + 1 + i]; }
  }

  /** When exactly the element at `k` fails `p`, filtering removes just that element. */
  lemma FilterRemovesOne<T(!new)>(p: T -> bool, s: seq<T>, k: int)
    requires 0 <= k < |s| && !p(s[k])
    requires PassesExcept(p, s, k)
    ensures Filter(p, s) == s[..k] + s[k+1..]
  {
    var front, back := s[..k], s[k+1..];
    assert s == front + ([s[k]] + back);
    FilterAppend(p, front, [s[k]] + back);
    FilterAppend(p, [s[k]], back);
    FilterNone(p, [s[k]]);
    FilterKeepsFront(p, s, k);
    FilterKeepsBack(p, s, k);
  }

  /** Predicates that agree on the elements of `s` filter it alike. */
  lemma {:induction false} FilterAgree<T(!new)>(p: T -> bool, q: T -> bool, s: seq<T>)
    requires forall i :: 0 <= i < |s| ==> p(s[i]) == q(s[i])
    ensures Filter(p, s) == Filter(q, s)
    decreases |s|
  {
    if |s| > 0 {
      FilterAgree(p, q, s[1..]);
    }
  }

  /** No element of `s` occurs twice. */
  predicate Distinct<T(==)>(s: seq<T>) {
    forall i, j :: 0 <= i < j < |s| ==> s[i] != s[j]
  }

  /** A filtered sequence of distinct elements is still distinct. */
  lemma {:induction false} FilterDistinct<T(!new)>(p: T -> bool, s: seq<T>)
    requires Distinct(s)
    ensures Distinct(Filter(p, s))
    decreases |s|
  {
    if |s| > 0 {
      FilterDistinct(p, s[1..]);
      assert s[0] !in s[1..];
    }
  }
}

=== FILE: text.dfy ===
/**
 * ASCII approximations of the JavaScript string operations the app uses:
 * `trim`, `toLowerCase`, `includes`, `split` on a single character and `join`.
 */
module Text {

  /** The white-space characters `String.prototype.trim` strips, restricted to ASCII. */
  predicate IsSpace(c: char) {
    c == ' ' || c == '\t' || c == '\n' || c == '\r' || c == '\U{000B}' || c == '\U{000C}'
  }

  predicate AllSpace(s: string) {
    forall i :: 0 <= i < |s| ==> IsSpace(s[i])
  }

  /** Neither the first nor the last character is white space. */
  predicate IsTrimmed(s: string) {
    |s| == 0 || (!IsSpace(s[0]) && !IsSpace(s[|s| - 1]))
  }

  /** `r` is `s` with nothing but white space cut from each end. */
  ghost predicate IsTrimOf(s: string, r: string) {
    exists i, j :: 0 <= i <= j <= |s| && r == s[i..j] && SpacesBefore(s, i) && SpacesFrom(s, j)
  }

  ghost predicate SpacesBefore(s: string, i: int) {
    forall k :: 0 <= k < i && k < |s| ==> IsSpace(s[k])
  }

  ghost predicate SpacesFrom(s: string, j: int) {
    forall k :: 0 <= j <= k < |s| ==> IsSpace(s[k])
  }

  /** The first position at or after `p` that is not white space (or the end). */
  function SkipSpace(s: string, p: nat): (i: nat)
    requires p <= |s|
    ensures p <= i <= |s|
    ensures forall k :: p <= k < i ==> IsSpace(s[k])
    ensures i == |s| || !IsSpace(s[i])
    decreases |s| - p
  {
    if p < |s| && IsSpace(s[p]) then SkipSpace(s, p + 1) else p
  }

  /** The end of `s[lo..hi]` once white space is dropped from its back. */
  function BackSpace(s: string, lo: nat, hi: nat): (j: nat)
    requires lo <= hi <= |s|
    ensures lo <= j <= hi
    ensures forall k :: j <= k < hi ==> IsSpace(s[k])
    ensures j == lo || !IsSpace(s[j - 1])
    decreases hi - lo
  {
    if lo < hi && IsSpace(s[hi - 1]) then BackSpace(s, lo, hi - 1) else hi
  }

  /** `s.trim()`: the slice of `s` left after removing white space at both ends. */
  function Trim(s: string): (r: string)
    ensures IsTrimmed(r)
    ensures IsTrimOf(s, r)
  {
    var i := SkipSpace(s, 0);
    var j := BackSpace(s, i, |s|);
    assert SpacesBefore(s, i) && SpacesFrom(s, j);
    s[i..j]
  }

  /** Trimming a string without white space at its ends changes nothing. */
  lemma TrimTrimmed(s: string)
    requires IsTrimmed(s)
    ensures Trim(s) == s
  {
    if |s| > 0 {
      assert SkipSpace(s, 0) == 0;
      assert BackSpace(s, 0, |s|) == |s|;
    }
  }

  /** A leading space is stripped by trimming. */
  lemma TrimLeadingSpace(s: string)
    requires IsTrimmed(s)
    ensures Trim([' '] + s) == s
  {
    var t := [' '] + s;
    assert SkipSpace(t, 0) == SkipSpace(t, 1);
    if |s| > 0 {
      assert t[1] == s[0];
      assert SkipSpace(t, 1) == 1;
      assert t[|t| - 1] == s[|s| - 1];
      assert BackSpace(t, 1, |t|) == |t|;
    } else {
      assert SkipSpace(t, 1) == 1;
    }
    assert t[1..] == s;
  }

  /** A string of white space trims to nothing. */
  lemma TrimBlank(s: string)
    requires AllSpace(s)
    ensures Trim(s) == ""
  {
    var i := SkipSpace(s, 0);
    assert i == |s|;
  }

  function LowerChar(c: char): char {
    if 'A' <= c <= 'Z' then (c as int + 32) as char else c
  }

  /** `s.toLowerCase()`, ASCII letters only. */
  function ToLower(s: string): (r: string)
    ensures |r| == |s|
    ensures forall i :: 0 <= i < |s| ==> r[i] == LowerChar(s[i])
  {
    seq(|s|, i requires 0 <= i < |s| => LowerChar(s[i]))
  }

  /** Lower-casing twice is lower-casing once. */
  lemma ToLowerIdempotent(s: string)
    ensures ToLower(ToLower(s)) == ToLower(s)
  {
  }

  /** `s.includes(t)`: `t` occurs in `s` as a contiguous block. */
  predicate Includes(s: string, t: string) {
    exists i :: 0 <= i <= |s| && OccursAt(s, t, i)
  }

  /** `t` occurs in `s` starting at position `i`. */
  predicate OccursAt(s: string, t: string, i: int) {
    0 <= i && i + |t| <= |s| && s[i..i + |t|] == t
  }

  /** Every string includes the empty string. */
  lemma IncludesEmpty(s: string)
    ensures Includes(s, "")
  {
    assert OccursAt(s, "", 0);
  }

  /** `s.split(sep)` for a one-character separator: never empty, empty pieces kept. */
  function Split(s: string, sep: char): (r: seq<string>)
    ensures |r| >= 1
    ensures forall k :: 0 <= k < |r| ==> sep !in r[k]
    decreases |s|
  {
    if |s| == 0 then [""]
    else if s[0] == sep then [""] + Split(s[1..], sep)
    else
      var rest := Split(s[1..], sep);
      [[s[0]] + rest[0]] + rest[1..]
  }

  /** Every character of a piece comes from the split string. */
  lemma {:induction false} SplitPieceChars(s: string, sep: char, k: int, c: char)
    requires 0 <= k < |Split(s, sep)| && c in Split(s, sep)[k]
    ensures c in s
    decreases |s|
  {
    if |s| > 0 {
      var rest := Split(s[1..], sep);
      if s[0] == sep {
        assert Split(s, sep) == [""] + rest;
        SplitPieceChars(s[1..], sep, k - 1, c);
      } else if k == 0 && c != s[0] {
        assert c in rest[0];
        SplitPieceChars(s[1..], sep, 0, c);
      } else if k > 0 {
        SplitPieceChars(s[1..], sep, k, c);
      }
    }
  }

  /** `xs.join(sep)`. */
  function Join(xs: seq<string>, sep: string): string
    decreases |xs|
  {
    if |xs| == 0 then ""
    else if |xs| == 1 then xs[0]
    else xs[0] + sep + Join(xs[1..], sep)
  }

  /** Splitting a piece without separator followed by more text. */
  lemma {:induction false} SplitCons(x: string, sep: char, rest: string)
    requires sep !in x
    ensures Split(x + [sep] + rest, sep) == [x] + Split(rest, sep)
    decreases |x|
  {
    if |x| == 0 {
      assert x + [sep] + rest == [sep] + rest;
      assert ([sep] + rest)[1..] == rest;
    } else {
      assert (x + [sep] + rest)[1..] == x[1..] + [sep] + rest;
      SplitCons(x[1..], sep, rest);
      assert [x[0]] + x[1..] == x;
    }
  }

  /** A piece without separator splits to itself. */
  lemma {:induction false} SplitNoSep(x: string, sep: char)
    requires sep !in x
    ensures Split(x, sep) == [x]
    decreases |x|
  {
    if |x| > 0 {
      SplitNoSep(x[1..], sep);
      assert [x[0]] + x[1..] == x;
    }
  }

  /** Splitting undoes joining, for pieces free of the separator. */
  lemma {:induction false} SplitJoin(xs: seq<string>, sep: char)
    requires |xs| >= 1
    requires forall k :: 0 <= k < |xs| ==> sep !in xs[k]
    ensures Split(Join(xs, [sep]), sep) == xs
    decreases |xs|
  {
    if |xs| == 1 {
      SplitNoSep(xs[0], sep);
    } else {
      SplitJoin(xs[1..], sep);
      SplitCons(xs[0], sep, Join(xs[1..], [sep]));
      assert [xs[0]] + xs[1..] == xs;
    }
  }

  /** Joining undoes splitting: the separators come back where they were. */
  lemma {:induction false} JoinSplit(s: string, sep: char)
    ensures Join(Split(s, sep), [sep]) == s
    decreases |s|
  {
    if |s| > 0 {
      var rest := Split(s[1..], sep);
      JoinSplit(s[1..], sep);
      if s[0] == sep {
        assert Split(s, sep) == [""] + rest;
        assert ([""] + rest)[1..] == rest;
      } else {
        var r := Split(s, sep);
        assert r == [[s[0]] + rest[0]] + rest[1..];
        if |rest| == 1 {
          assert s[1..] == rest[0];
        } else {
          assert Join(rest, [sep]) == rest[0] + [sep] + Join(rest[1..], [sep]);
          assert r[1..] == rest[1..];
        }
        assert s == [s[0]] + s[1..];
      }
    }
  }
}

=== FILE: trainer.dfy ===
/**
 * The `Trainer` component as a state machine: the queue, the cursor index and the
 * flipped flag, driven by mount, dataset changes, flips and grading. React effects are
 * explicit transitions; the clock is the `now` parameter.
 */
module Trainer {
  import opened Wrappers
  import opened Vocab
  import opened Scheduler
  import opened ReviewQueue
  import opened DueOrder

  datatype Session = Session(queue: seq<Card>, index: nat, flipped: bool)

  /** The state at mount: a fresh queue from the dataset, first card, face up. */
  function Mount(ds: seq<Term>): (s: Session)
    ensures |s.queue| == |ds| && s.index == 0 && !s.flipped
    ensures forall i :: 0 <= i < |ds| ==> s.queue[i] == Fresh(ds[i])
  {
    Session(InitQueue(ds), 0, false)
  }

  /** The dataset effect: the queue is reconciled; cursor and flip state are kept. */
  function DatasetChanged(s: Session, ds: seq<Term>): (r: Session)
    ensures r.index == s.index && r.flipped == s.flipped
    ensures |r.queue| == |ds|
    ensures forall i :: 0 <= i < |ds| ==> r.queue[i].Id() == ds[i].id
  {
    s.(queue := Reconcile(s.queue, ds))
  }

  /** The card on screen, or none when the queue is empty and nothing is rendered. */
  function CurrentCard(s: Session): (c: Option<Card>)
    ensures c.None? <==> |s.queue| == 0
    ensures c.Some? ==> c.value in s.queue
  {
    Current(s.queue, s.index)
  }

  /** Clicking the card flips it and changes nothing else. */
  function Flip(s: Session): (r: Session)
    ensures r.flipped != s.flipped
    ensures r.queue == s.queue && r.index == s.index
  {
    s.(flipped := !s.flipped)
  }

  /**
   * `gradeCard(grade)`: every record sharing the current card's id is rescheduled,
   * the cursor advances and the card turns face up. Without a current card the
   * grade buttons are not rendered, so there is no transition.
   */
  function GradeCard(s: Session, g: Grade, now: int): (r: Option<Session>)
    ensures r.None? <==> |s.queue| == 0
    ensures r.Some? ==> r.value.index == s.index + 1 && !r.value.flipped
    ensures r.Some? ==> |r.value.queue| == |s.queue|
    ensures r.Some? ==> forall i :: 0 <= i < |s.queue| ==> r.value.queue[i].item == s.queue[i].item
    ensures r.Some? ==> forall i :: 0 <= i < |s.queue| && s.queue[i].Id() != CurrentCard(s).value.Id() ==>
      r.value.queue[i] == s.queue[i]
    ensures r.Some? ==> forall i :: 0 <= i < |s.queue| && s.queue[i].Id() == CurrentCard(s).value.Id() ==>
      r.value.queue[i].interval == NextInterval(s.queue[i].interval, g) &&
      r.value.queue[i].due == NextDue(now, r.value.queue[i].interval)
  {
    match CurrentCard(s)
    case None => None
    case Some(c) => Some(Session(GradeQueue(s.queue, c.Id(), g, now), s.index + 1, false))
  }

  /** Grading reschedules the card on screen at least half a day into the future. */
  lemma {:induction false} GradedCardDueLater(s: Session, g: Grade, now: int)
    requires |s.queue| > 0
    ensures forall i :: 0 <= i < |s.queue| && s.queue[i].Id() == CurrentCard(s).value.Id() ==>
      GradeCard(s, g, now).value.queue[i].due >= now + MsPerDay / 2
  {
    var r := GradeCard(s, g, now).value;
    forall i | 0 <= i < |s.queue| && s.queue[i].Id() == CurrentCard(s).value.Id()
      ensures r.queue[i].due >= now + MsPerDay / 2
    {
      DueAfterGrade(now, s.queue[i].interval, g);
    }
  }

  /** Every reachable session keeps intervals of at least half a day. */
  lemma {:induction false} SessionIntervalFloor(s: Session, ds: seq<Term>, g: Grade, now: int)
    requires ValidIntervals(s.queue)
    ensures ValidIntervals(Mount(ds).queue)
    ensures ValidIntervals(DatasetChanged(s, ds).queue)
    ensures ValidIntervals(Flip(s).queue)
    ensures |s.queue| > 0 ==> ValidIntervals(GradeCard(s, g, now).value.queue)
  {
    IntervalFloorInvariant(s.queue, ds, 0, g, now);
    if |s.queue| > 0 {
      IntervalFloorInvariant(s.queue, ds, CurrentCard(s).value.Id(), g, now);
    }
  }

  /**
   * Grading and then a dataset change that keeps the graded term: the graded
   * schedule survives, as the queue reuses its record verbatim.
   */
  lemma {:induction false} GradeSurvivesDatasetChange(s: Session, ds: seq<Term>, g: Grade, now: int, i: int)
    requires |s.queue| > 0
    requires 0 <= i < |ds| && ds[i].id == CurrentCard(s).value.Id()
    ensures exists k :: (LastWithId(s.queue, ds[i].id, k) &&
                         DatasetChanged(GradeCard(s, g, now).value, ds).queue[i] == Regrade(s.queue[k], g, now))
  {
    var id := CurrentCard(s).value.Id();
    var c := CurrentCard(s).value;
    var j :| 0 <= j < |s.queue| && s.queue[j] == c;
    assert InQueue(s.queue, id);
    var k := LastWithIdExists(s.queue, id);
    GradeThenReconcile(s.queue, ds, id, g, now, k);
  }

  /** Deleting a term and reconciling removes its record: it can never be current again. */
  lemma DeletedTermLeavesSession(s: Session, ds: seq<Term>, id: int)
    ensures !InQueue(DatasetChanged(s, DeleteTerm(ds, id)).queue, id)
    ensures forall n: nat :: Current(DatasetChanged(s, DeleteTerm(ds, id)).queue, n).Some? ==>
      Current(DatasetChanged(s, DeleteTerm(ds, id)).queue, n).value.Id() != id
  {
    ReconcileDropsMissing(s.queue, DeleteTerm(ds, id), id);
  }

  /**
   * Leaving the trainer tab unmounts the component, so a term deleted in the explorer
   * reaches the trainer as a remount on the smaller dataset: its id is in no record.
   */
  lemma RemountAfterDelete(ds: seq<Term>, id: int)
    ensures !InQueue(Mount(DeleteTerm(ds, id)).queue, id)
    ensures forall n: nat :: Current(Mount(DeleteTerm(ds, id)).queue, n).Some? ==>
      Current(Mount(DeleteTerm(ds, id)).queue, n).value.Id() != id
  {
  }

  /** The dataset effect also runs right after mounting; with unique ids it changes nothing. */
  lemma MountSettles(ds: seq<Term>)
    requires UniqueIds(ds)
    ensures DatasetChanged(Mount(ds), ds) == Mount(ds)
  {
    ReconcileInit(ds);
  }

  /** Two records already in due order form the view as they are. */
  lemma ViewOfOrderedPair(x: Card, y: Card)
    requires x.due <= y.due
    ensures SortByDue([x, y]) == [x, y]
  {
    StableSortIsSortByDue([x, y], [x, y]);
  }

  /** Two records out of due order are swapped in the view. */
  lemma ViewOfSwappedPair(x: Card, y: Card)
    requires y.due < x.due
    ensures SortByDue([x, y]) == [y, x]
  {
    forall k ensures WithDue([y, x], k) == WithDue([x, y], k) {
      assert [y, x][1..] == [x] && [x, y][1..] == [y];
    }
    StableSortIsSortByDue([x, y], [y, x]);
  }

  /** A freshly mounted pair shows its first card. */
  lemma MountedPairShowsFirst(a: Term, b: Term)
    ensures CurrentCard(Mount([a, b])) == Some(Fresh(a))
  {
    var q := Mount([a, b]).queue;
    assert q == [Fresh(a), Fresh(b)];
    ViewOfOrderedPair(Fresh(a), Fresh(b));
    CurrentIsViewAt(q, 0);
  }

  /** Grading a freshly mounted pair regrades only its first card and moves the cursor to 1. */
  lemma GradedPair(a: Term, b: Term, g: Grade, now: int)
    requires a.id != b.id
    ensures GradeCard(Mount([a, b]), g, now) == Some(Session([Regrade(Fresh(a), g, now), Fresh(b)], 1, false))
  {
    MountedPairShowsFirst(a, b);
    var s := Mount([a, b]);
    assert s.queue == [Fresh(a), Fresh(b)];
    var q := GradeQueue(s.queue, a.id, g, now);
    assert q == [Regrade(Fresh(a), g, now), Fresh(b)];
  }

  /**
   * The cursor advances over a view that grading has just re-sorted. With two fresh
   * cards, the graded first card moves to the back of the view, which is exactly where
   * the advanced cursor points: the same card comes up again at once.
   */
  lemma TwoCardsShowGradedAgain(a: Term, b: Term, g: Grade, now: int)
    requires a.id != b.id && now >= 0
    ensures CurrentCard(Mount([a, b])) == Some(Fresh(a))
    ensures GradeCard(Mount([a, b]), g, now).Some?
    ensures CurrentCard(GradeCard(Mount([a, b]), g, now).value).value.Id() == a.id
  {
    MountedPairShowsFirst(a, b);
    GradedPair(a, b, g, now);
    var graded := Regrade(Fresh(a), g, now);
    var q := [graded, Fresh(b)];
    ViewOfSwappedPair(graded, Fresh(b));
    CurrentIsViewAt(q, 1);
  }

  /** Adding two fresh terms yields exactly two new records, fresh and last in order. */
  lemma AddTwoTerms(s: Session, ds: seq<Term>, a: Term, b: Term)
    requires !InQueue(s.queue, a.id) && !InQueue(s.queue, b.id)
    ensures DatasetChanged(s, AddTerm(AddTerm(ds, a), b)).queue ==
      Reconcile(s.queue, ds) + [Fresh(a), Fresh(b)]
  {
    assert AddTerm(AddTerm(ds, a), b) == ds + [a, b];
    AddThenReconcile(s.queue, ds, [a, b]);
  }
}

=== FILE: vocab.dfy ===
/**
 * The vocabulary records (`Term`), their review-scheduling copy, and the list updates
 * the app applies to the dataset: adding a term from the dialog and deleting by id.
 */
module Vocab {
  import Text
  import Seqs

  /**
   * A vocabulary entry. An absent Chinese gloss is the empty string and absent tags
   * the empty sequence; the app treats both the same as `undefined`.
   */
  datatype Term = Term(id: int, term: string, cn: string, def: string, example: string, tags: seq<string>)

  /**
   * A queue record: the term's fields spread with `interval` (tenths of a day) and
   * `due` (milliseconds since the epoch).
   */
  datatype Card = Card(item: Term, due: int, interval: int) {
    function Id(): int { item.id }
  }

  /** `{ ...d, due: 0, interval: 0.5 }`: never graded, immediately due. */
  function Fresh(d: Term): (c: Card)
    ensures c.item == d && c.due == 0 && c.interval == 5
  {
    Card(d, 0, 5)
  }

  /** No id occurs twice. */
  predicate UniqueIds(ds: seq<Term>) {
    forall i, j :: 0 <= i < j < |ds| ==> ds[i].id != ds[j].id
  }

  predicate HasId(ds: seq<Term>, id: int) {
    exists i :: 0 <= i < |ds| && ds[i].id == id
  }

  /** A tag as saved: non-empty, trimmed, comma-free. */
  predicate IsTag(t: string) {
    t != "" && Text.IsTrimmed(t) && ',' !in t
  }

  function TrimAll(xs: seq<string>): (r: seq<string>)
    ensures |r| == |xs|
    ensures forall k :: 0 <= k < |xs| ==> r[k] == Text.Trim(xs[k])
  {
    seq(|xs|, k requires 0 <= k < |xs| => Text.Trim(xs[k]))
  }

  /** Trimming a comma-free piece leaves a comma-free tag candidate. */
  lemma TrimmedPiecesCommaFree(pieces: seq<string>)
    requires forall k :: 0 <= k < |pieces| ==> ',' !in pieces[k]
    ensures forall k :: 0 <= k < |pieces| ==> ',' !in TrimAll(pieces)[k]
  {
    var trimmed := TrimAll(pieces);
    forall k | 0 <= k < |pieces| ensures ',' !in trimmed[k] {
      assert Text.IsTrimOf(pieces[k], trimmed[k]);
      var i, j :| 0 <= i <= j <= |pieces[k]| && trimmed[k] == pieces[k][i..j];
      assert forall c :: c in trimmed[k] ==> c in pieces[k];
    }
  }

  /** The non-empty, trimmed, comma-free candidates are tags. */
  lemma KeptAreTags(trimmed: seq<string>, r: seq<string>)
    requires forall k :: 0 <= k < |trimmed| ==> ',' !in trimmed[k] && Text.IsTrimmed(trimmed[k])
    requires r == Seqs.Filter((t: string) => t != "", trimmed)
    ensures forall m :: 0 <= m < |r| ==> IsTag(r[m])
  {
    forall m | 0 <= m < |r| ensures IsTag(r[m]) {
      assert r[m] in r;
      var k :| 0 <= k < |trimmed| && trimmed[k] == r[m];
    }
  }

  /** `tags.split(',').map(t => t.trim()).filter(Boolean)`. */
  function ParseTags(s: string): (r: seq<string>)
    ensures forall k :: 0 <= k < |r| ==> IsTag(r[k])
  {
    var pieces := Text.Split(s, ',');
    TrimmedPiecesCommaFree(pieces);
    var r := Seqs.Filter((t: string) => t != "", TrimAll(pieces));
    KeptAreTags(TrimAll(pieces), r);
    r
  }

  /**
   * Parsing comma-joined pieces trims every piece and keeps the non-empty results in
   * order, blank pieces mixed in or not (a trailing comma, "a,,b").
   */
  lemma ParseJoinedPieces(xs: seq<string>)
    requires |xs| >= 1
    requires forall k :: 0 <= k < |xs| ==> ',' !in xs[k]
    ensures ParseTags(Text.Join(xs, ",")) == Seqs.Filter((t: string) => t != "", TrimAll(xs))
  {
    Text.SplitJoin(xs, ',');
  }

  /** Tags saved by joining with commas read back unchanged and in order. */
  lemma ParseJoinedTags(tags: seq<string>)
    requires |tags| >= 1
    requires forall k :: 0 <= k < |tags| ==> IsTag(tags[k])
    ensures ParseTags(Text.Join(tags, ",")) == tags
  {
    Text.SplitJoin(tags, ',');
    var trimmed := TrimAll(tags);
    forall k | 0 <= k < |tags| ensures trimmed[k] == tags[k] {
      Text.TrimTrimmed(tags[k]);
    }
    assert trimmed == tags;
    ParseFromPieces(Text.Join(tags, ","), tags);
  }

  /** Every tag after the first with one leading space, as `", "`-joining writes it. */
  function SpaceAfterFirst(tags: seq<string>): (r: seq<string>)
    requires |tags| >= 1
    ensures |r| == |tags| && r[0] == tags[0]
    ensures forall k :: 1 <= k < |tags| ==> r[k] == [' '] + tags[k]
  {
    [tags[0]] + seq(|tags| - 1, k requires 0 <= k < |tags| - 1 => [' '] + tags[k + 1])
  }

  /** Putting a space in front of the first piece puts it in front of the joined text. */
  lemma PaddedHead(y: string, ys: seq<string>)
    ensures Text.Join([[' '] + y] + ys, ",") == [' '] + Text.Join([y] + ys, ",")
  {
    if |ys| > 0 {
      assert ([[' '] + y] + ys)[1..] == ys;
      assert ([y] + ys)[1..] == ys;
    }
  }

  /** The padded list past its head is the padded tail with a space before its first piece. */
  lemma PaddedTail(tags: seq<string>)
    requires |tags| >= 2
    ensures SpaceAfterFirst(tags)[1..] == [[' '] + tags[1]] + SpaceAfterFirst(tags[1..])[1..]
  {
  }

  lemma {:induction false} JoinCommaSpace(tags: seq<string>)
    requires |tags| >= 1
    ensures Text.Join(tags, ", ") == Text.Join(SpaceAfterFirst(tags), ",")
    decreases |tags|
  {
    if |tags| > 1 {
      var rest := tags[1..];
      JoinCommaSpace(rest);
      var p, pr := SpaceAfterFirst(tags), SpaceAfterFirst(rest);
      PaddedTail(tags);
      PaddedHead(rest[0], pr[1..]);
      assert [rest[0]] + pr[1..] == pr;
      calc {
        Text.Join(p, ",");
        tags[0] + "," + Text.Join(p[1..], ",");
        tags[0] + "," + ([' '] + Text.Join(pr, ","));
        tags[0] + ", " + Text.Join(rest, ", ");
      }
    }
  }

  /** Parsing depends only on the trimmed pieces between commas. */
  lemma ParseFromPieces(s: string, tags: seq<string>)
    requires TrimAll(Text.Split(s, ',')) == tags
    requires forall k :: 0 <= k < |tags| ==> tags[k] != ""
    ensures ParseTags(s) == tags
  {
  }

  lemma PaddedCommaFree(tags: seq<string>)
    requires |tags| >= 1
    requires forall k :: 0 <= k < |tags| ==> IsTag(tags[k])
    ensures forall k :: 0 <= k < |tags| ==> ',' !in SpaceAfterFirst(tags)[k]
  {
    var padded := SpaceAfterFirst(tags);
    forall k | 0 <= k < |padded| ensures ',' !in padded[k] {
      if k > 0 {
        assert padded[k] == [' '] + tags[k];
        assert ',' !in tags[k];
      }
    }
  }

  lemma PaddedTrims(tags: seq<string>)
    requires |tags| >= 1
    requires forall k :: 0 <= k < |tags| ==> IsTag(tags[k])
    ensures TrimAll(SpaceAfterFirst(tags)) == tags
  {
    var trimmed := TrimAll(SpaceAfterFirst(tags));
    forall k | 0 <= k < |tags| ensures trimmed[k] == tags[k] {
      if k == 0 {
        Text.TrimTrimmed(tags[0]);
      } else {
        Text.TrimLeadingSpace(tags[k]);
      }
    }
  }

  /** Tags typed as the dialog suggests, separated by comma and space, read back unchanged. */
  lemma ParseCommaSpaceTags(tags: seq<string>)
    requires |tags| >= 1
    requires forall k :: 0 <= k < |tags| ==> IsTag(tags[k])
    ensures ParseTags(Text.Join(tags, ", ")) == tags
  {
    var padded := SpaceAfterFirst(tags);
    JoinCommaSpace(tags);
    PaddedCommaFree(tags);
    Text.SplitJoin(padded, ',');
    PaddedTrims(tags);
    ParseFromPieces(Text.Join(tags, ", "), tags);
  }

  /** Input whose comma-separated pieces are all blank yields no tags. */
  lemma {:induction false} ParseBlankPieces(s: string)
    requires forall k :: 0 <= k < |Text.Split(s, ',')| ==> Text.Trim(Text.Split(s, ',')[k]) == ""
    ensures ParseTags(s) == []
  {
    var trimmed := TrimAll(Text.Split(s, ','));
    Seqs.FilterNone((t: string) => t != "", trimmed);
  }

  /** Input made only of white space and commas, the empty input included, yields no tags. */
  lemma ParseAllBlank(s: string)
    requires forall i :: 0 <= i < |s| ==> Text.IsSpace(s[i]) || s[i] == ','
    ensures ParseTags(s) == []
  {
    var pieces := Text.Split(s, ',');
    forall k | 0 <= k < |pieces| ensures Text.Trim(pieces[k]) == "" {
      forall i | 0 <= i < |pieces[k]| ensures Text.IsSpace(pieces[k][i]) {
        Text.SplitPieceChars(s, ',', k, pieces[k][i]);
      }
      Text.TrimBlank(pieces[k]);
    }
    ParseBlankPieces(s);
  }

  /**
   * The record the Add Term dialog saves: id from the clock, text fields trimmed,
   * tags parsed.
   */
  function NewTerm(now: int, term: string, def: string, example: string, cn: string, tags: string): (t: Term)
    ensures t.id == now
    ensures t.term == Text.Trim(term) && t.def == Text.Trim(def)
    ensures t.example == Text.Trim(example) && t.cn == Text.Trim(cn)
    ensures t.tags == ParseTags(tags)
    ensures Text.IsTrimmed(t.term) && Text.IsTrimmed(t.def) && Text.IsTrimmed(t.example) && Text.IsTrimmed(t.cn)
    ensures forall k :: 0 <= k < |t.tags| ==> IsTag(t.tags[k])
  {
    Term(now, Text.Trim(term), Text.Trim(cn), Text.Trim(def), Text.Trim(example), ParseTags(tags))
  }

  /**
   * Typing clean input into the dialog saves it unchanged: trimmed text is kept as
   * typed, and tags typed as "a, b, c" come back as the list of tags.
   */
  lemma NewTermKeepsCleanInput(now: int, term: string, def: string, example: string, cn: string, tags: seq<string>)
    requires Text.IsTrimmed(term) && Text.IsTrimmed(def) && Text.IsTrimmed(example) && Text.IsTrimmed(cn)
    requires |tags| >= 1 && forall k :: 0 <= k < |tags| ==> IsTag(tags[k])
    ensures NewTerm(now, term, def, example, cn, Text.Join(tags, ", ")) == Term(now, term, cn, def, example, tags)
  {
    Text.TrimTrimmed(term);
    Text.TrimTrimmed(def);
    Text.TrimTrimmed(example);
    Text.TrimTrimmed(cn);
    ParseCommaSpaceTags(tags);
  }

  /** `d => [...d, item]`: the new term goes last; earlier terms keep their places. */
  function AddTerm(ds: seq<Term>, item: Term): (r: seq<Term>)
    ensures |r| == |ds| + 1 && r[|ds|] == item
    ensures forall i :: 0 <= i < |ds| ==> r[i] == ds[i]
  {
    ds + [item]
  }

  /** `arr.filter(x => x.id !== id)`. */
  function DeleteTerm(ds: seq<Term>, id: int): (r: seq<Term>)
    ensures !HasId(r, id)
    ensures forall d :: d in ds && d.id != id ==> d in r
    ensures forall d :: d in r ==> d in ds
    ensures HasId(ds, id) <==> |r| < |ds|
  {
    var p := (x: Term) => x.id != id;
    var r := Seqs.Filter(p, ds);
    assert !HasId(r, id) by {
      forall i | 0 <= i < |r| ensures r[i].id != id { assert r[i] in r; }
    }
    if HasId(ds, id) then
      var k :| 0 <= k < |ds| && ds[k].id == id;
      Seqs.FilterDrops(p, ds, k);
      r
    else
      r
  }

  /** With unique ids, deleting the id at position `k` removes exactly that entry, keeping the order of the rest. */
  lemma DeleteRemovesEntry(ds: seq<Term>, k: int)
    requires UniqueIds(ds) && 0 <= k < |ds|
    ensures DeleteTerm(ds, ds[k].id) == ds[..k] + ds[k+1..]
  {
    var p := (x: Term) => x.id != ds[k].id;
    assert Seqs.PassesExcept(p, ds, k);
    Seqs.FilterRemovesOne(p, ds, k);
  }

  /** Deletion works entry by entry, so the surviving entries keep their relative order. */
  lemma DeleteAppend(a: seq<Term>, b: seq<Term>, id: int)
    ensures DeleteTerm(a + b, id) == DeleteTerm(a, id) + DeleteTerm(b, id)
  {
    Seqs.FilterAppend((x: Term) => x.id != id, a, b);
  }

  /** Deleting a fresh id after adding it restores the dataset. */
  lemma DeleteAdded(ds: seq<Term>, item: Term)
    requires !HasId(ds, item.id)
    ensures DeleteTerm(AddTerm(ds, item), item.id) == ds
  {
    var p := (x: Term) => x.id != item.id;
    Seqs.FilterAppend(p, ds, [item]);
    assert Seqs.Filter(p, ds) == ds;
  }

  /** Deleting keeps unique ids unique. */
  lemma DeletePreservesUnique(ds: seq<Term>, id: int)
    requires UniqueIds(ds)
    ensures UniqueIds(DeleteTerm(ds, id))
  {
    UniqueFilter(ds, (x: Term) => x.id != id);
  }

  lemma {:induction false} UniqueFilter(ds: seq<Term>, p: Term -> bool)
    requires UniqueIds(ds)
    ensures UniqueIds(Seqs.Filter(p, ds))
    decreases |ds|
  {
    if |ds| > 0 {
      UniqueFilter(ds[1..], p);
      var rest := Seqs.Filter(p, ds[1..]);
      forall j | 0 <= j < |rest| ensures rest[j].id != ds[0].id {
        assert rest[j] in rest;
        var i :| 0 <= i < |ds[1..]| && ds[1..][i] == rest[j];
      }
    }
  }
}

=== FILE: wrappers.dfy ===
/** Optional values, used where the app reads `undefined` or a missing map entry. */
module Wrappers {

  datatype Option<+T> = None | Some(value: T)
}
